=== FILE: README.md ===
# Player tracking: a verified model of the box-stream core

The system tracks players in an uploaded video. A FastAPI server
runs a detector and a tracker over the clip. The tracker yields one set of
boxes per frame, each tagged with a track id. The server turns that box
stream into derived artifacts:

- each player's first and last second on screen;
- an annotated render with one labelled box per player;
- one thumbnail per player;
- on request, a video cropped around one player.

A Streamlit client reads the ids and time ranges back out of two response
headers. It shows them as `M:SS` captions and keeps per-player widgets in
its session state.

This project models that logic in Dafny and proves what it promises:

- `basics.dfy` — `Option`, `Result` and `Min`. `Min` is the length of a
  `zip`.
- `text.dfy` — decimal rendering and parsing (`str`/`int`), and
  `str.join`/`str.split` on one separator character. Proves the round trips
  between them.
- `geometry.dfy` — `Rect`, `fit_interval`, and the symmetric padding that
  gives every crop window the same size.
- `rounding.dfy` — `round(frame_idx / fps)` on an exact rational frame rate.
  Ties go to even, as Python's `round` does. It is monotone in the frame
  index.
- `boxstream.dfy` — the tracker output as a sequence of frames. Each frame
  is a map from track id to box; a frame without ids is the empty map. Also
  first and last sighting, and the ascending list of frames that show a
  player.
- `video.dfy` — `get_player_times`, `draw_bboxes`, `crop_to_player` (both
  as written and corrected; see Findings) and `save_player_images`.
- `sorting.dfy` — `sorted` on a set of ids.
- `server.dfy` — the session. It is either empty, or holds the clip, the
  box stream and the id set of the last accepted `/infer`. Also covered:
  - the 404 on unknown detector or tracker names;
  - the 400, 422 and 404 checks of `/make_video` and `/make_focused_video`;
  - the two reply headers;
  - sequences of requests.
- `client.dfy` — `to_video_time` and its inverse. Also `infer`: it clears the
  session except `models`, parses the headers, stores one caption per player,
  reads every player's thumbnail from the archive and resets the widgets.
  And `set_all_checkboxes` / `set_all_inputs`.
- `protocol.dfy` — the two ends together. Whenever at least one player is
  tracked, the ids the server writes come back unchanged at the client, in
  order. After such an `/infer`, the client shows each player's first and
  last second, provided every tracked player has a thumbnail in the
  archive. The archive packs every file in `results/images`, which is never
  emptied: this run's thumbnails, which cover every tracked player when the
  stream is no longer than the video, and those earlier runs left there.
  When no player is tracked,
  the server sends an empty ids header and the client fails on it (the
  first Finding). The corrected reader accepts that reply too.

A Python exception is `None` (or an `Err` status on the server). It is never
a precondition. A player's start and end second is `round(frame_idx / fps)`:
the nearest integer, with ties to even. Rounding is monotone, so start is
never after end.

## Model

| member | source | states |
|---|---|---|
| Text.ParseInt | app/client/main.py:100 | `int(s)` succeeds exactly on an optional sign followed by one or more ASCII digits |
| Text.IntToString | app/server/main.py:85 | `str(n)` of a non-negative number is a numeral; of a negative one, a minus followed by a numeral. With `Text.IntRoundTrip` it reads back as `n` |
| Text.IntToStringAvoids | app/server/main.py:85-88 | a rendered integer holds only digits and a leading minus, so commas, colons and spaces never occur inside one |
| Text.IntRoundTrip | app/client/main.py:99-101 | `int(str(n)) == n` for every integer, negative ones included |
| Text.IntToStringInjective | app/server/main.py:85 | distinct ids render to distinct numerals |
| Text.Split | app/client/main.py:100 | `split` always yields at least one piece, and no piece contains the separator |
| Text.SplitJoin | app/client/main.py:99-101 | splitting a join of separator-free pieces returns exactly those pieces |
| Text.Join | app/server/main.py:85-88 | `",".join` of no pieces is empty; otherwise the result starts with the first piece, followed by the separator when more pieces come. `Text.SplitJoin` and `Text.JoinSplit` make it the inverse of `split` |
| Text.JoinSplit | app/server/main.py:85-88 | joining the pieces of a split rebuilds the string |
| Geometry.FitInterval | app/server/video.py:24-31 | the length is kept. An in-bounds interval is unchanged. One starting below `min_lim` is moved to start there; otherwise one ending past `max_lim` is moved to end there. The result is in bounds whenever the length fits, and no shift that fits is smaller |
| Geometry.FitIntervalIdempotent | app/server/video.py:24-31 | when the interval fits the bounds, fitting twice is fitting once |
| Geometry.FitIntervalNotIdempotentWhenTooLong | app/server/video.py:24-31 | without room, `(0,10)` in `[0,5]` goes to `(-5,5)` and then back to `(0,10)` |
| Geometry.Grow | app/server/video.py:95-99 | padding gives exactly the target width. A smaller box stays inside it, with the extra split evenly and the odd pixel on the right or bottom |
| Geometry.GrowAndFit | app/server/video.py:98-104 | padding then fitting keeps the target size. The window is inside `[0, limit]` when the size fits, and still covers an in-frame box |
| Geometry.PadToSize | app/server/video.py:95-104 | the crop window is exactly `max_x` by `max_y`. It lies inside the frame when that size fits, and covers the player's in-frame box |
| Rounding.RoundHalfEven | app/server/video.py:45 | the result is within half a divisor of the exact quotient, and even on a tie |
| Rounding.Seconds | app/server/video.py:45 | the second of a frame is `frame_idx / fps` rounded to the nearest whole second, ties to even |
| Rounding.RoundHalfEvenMonotone | app/server/video.py:45 | rounding never reverses the order of two quotients |
| Rounding.SecondsMonotone | app/server/video.py:45 | a later frame never gets an earlier second |
| BoxStream.AllIds | app/server/video.py:43-47 | an id is in the set exactly when some frame tracks it |
| BoxStream.FirstSeen | app/server/video.py:46 | the index of a frame tracking the id, with no earlier frame tracking it |
| BoxStream.LastSeen | app/server/video.py:47 | the index of a frame tracking the id, with no later frame tracking it |
| BoxStream.SightingsAfterFrame | app/server/video.py:43-47 | one more frame keeps every earlier first sighting, gives a first sighting to the ids new in it, and is the last sighting of every id it tracks |
| BoxStream.FirstSeenNotAfterLastSeen | app/server/video.py:43-47 | the first sighting is not after the last |
| BoxStream.FirstSeenOfPrefix | app/server/video.py:119-125 | the first sighting within the frames shared with the video is the first sighting overall |
| BoxStream.Occurrences | app/server/video.py:83-87 | strictly ascending indices of frames tracking the id, with every such frame listed |
| BoxStream.OccurrencesEmpty | app/server/video.py:86-90 | the player has no boxes exactly when it never appears, which is when `max` fails |
| BoxStream.PlayerBoxes | app/server/video.py:82-87 | the player's boxes, one per appearance, in frame order |
| Video.PlayerTimes | app/server/video.py:41-48 | start and end have the same keys: the ids seen anywhere. `start[id]` is the second of the first sighting, since the merge keeps existing starts. `end[id]` is the second of the last, since the merge overwrites ends |
| Video.StartNotAfterEnd | app/server/video.py:41-48 | every player's start second is at most its end second |
| Video.DrawBoxes | app/server/video.py:59-70 | fails exactly when a shared frame tracks an id with no parameters. Otherwise there are `min(#frames, #boxes)` frames, and a box is drawn exactly when its id is tracked there and `draw` is set. The caption is the custom label if non-empty, else `id<N>` |
| Video.FrameOverlays | app/server/video.py:61-69 | on one frame, a box is drawn for every tracked player whose `draw` is set and for no other, at the player's own box, with a non-empty caption |
| Video.Label | app/server/video.py:66 | the caption is never empty: the custom label when set, otherwise `id` followed by a numeral that reads back as the id |
| Video.DrawDefaults | app/server/main.py:90-95 | with default parameters for every id, every box of every shared frame is drawn under `id<N>` |
| Video.NothingDrawnWhenAllHidden | app/server/video.py:64-65 | with every `draw` off, every output frame is bare |
| Video.MaxOf | app/server/video.py:89-90 | the maximum bounds every element and is one of them |
| Video.FocusSize | app/server/video.py:89-90 | the crop size is the widest and the tallest box of the player, each attained by some appearance |
| Video.FocusCrop | app/server/video.py:95-106 | the crop built from appearance `k` is cut from frame `k`. Its window is the player's widest-by-tallest size, lies inside the frame when that size fits, and covers the player's box there |
| Video.CropToPlayerAsWritten | app/server/video.py:82-106 | fails exactly when the player never appears. Otherwise there are `min(#video frames, #appearances)` crops, the j-th window built from the j-th appearance but cut from video frame j |
| Video.CropAsWrittenMissesPlayer | app/server/video.py:94 | on a two-frame clip with the player only in frame 1, the single crop as written is cut from frame 0, which does not show the player |
| Video.CropAsWrittenRightWhenPresentThroughout | app/server/video.py:94 | if the player is in every frame and the video is long enough, the written and corrected crops agree |
| Video.OccurrencesAll | app/server/video.py:83-87 | a player present in every frame occurs at every index |
| Video.CropToPlayer | app/server/video.py:82-106 | fails exactly when the player never appears. Otherwise there is one crop per shared frame showing the player, in order, each cut from that frame |
| Video.CropFramesShowPlayer | app/server/video.py:83-87 | every crop is cut from a shared frame that shows the player |
| Video.CropFramesInOrder | app/server/video.py:94-106 | crops follow frame order, with no frame twice |
| Video.CropFramesAreOccurrences | app/server/video.py:83-94 | the crops' frames are exactly the player's appearances, in order |
| Video.CropFramesCoverAppearances | app/server/video.py:83-94 | every shared frame showing the player is cut |
| Video.CropWindowsFit | app/server/video.py:89-104 | all windows of a focused video share the widest-by-tallest size, lie inside the frame when it fits, and cover the player |
| Video.FirstCrops | app/server/video.py:117-125 | one thumbnail per id seen: the box from the first frame tracking it |
| Video.PlayerImages | app/server/video.py:117-125 | thumbnails cover exactly the ids seen in the frames shared with the video, each from its first sighting |
| Video.PlayerImagesCoverStream | app/server/video.py:117-125 | when the video has a frame for every entry of the stream, every tracked id gets a thumbnail |
| Video.ThumbnailMissingPastClipEnd | app/server/video.py:119 | a player tracked only after the video's last frame is among the stream's ids but gets no thumbnail |
| Sorting.SortedIds | app/server/main.py:84 | strictly ascending, holding exactly the given ids |
| Server.RangeText | app/server/main.py:87 | one `start-end` entry holds no comma; for non-negative seconds it splits on the dash into exactly the two numerals |
| Server.IdsHeader | app/server/main.py:84-85 | the `player_ids` header is empty exactly for no ids; otherwise it splits on commas into one numeral per id, in order |
| Server.TimesHeader | app/server/main.py:86-88 | the `player_times` header is empty for no ids; otherwise it splits on commas into one `start-end` entry per id, in order |
| Server.DefaultParamsFor | app/server/main.py:94 | default parameters for exactly the given ids |
| Server.Infer | app/server/main.py:52-105 | an unknown detector or tracker gives 404 and leaves the session alone. Otherwise the session is replaced by the new clip, its stream and its id set, and a consistent session stays consistent |
| Server.InferReplyHeaders | app/server/main.py:83-88 | the headers list the ascending ids, and each id's start and end second in the same order |
| Server.InferReplyRender | app/server/main.py:90-95 | the first render draws every box of every shared frame under `id<N>` |
| Server.MakeVideo | app/server/main.py:126-148 | 400 without a session. 422 unless the parameter keys equal the stored ids exactly. Otherwise the render with those parameters, which always exists for a consistent session |
| Server.MakeFocusedVideo | app/server/main.py:158-179 | 400 without a session and 404 for an id not stored. Otherwise the crop of `crop_to_player` as written, which always exists for a consistent session |
| Server.MakeFocusedVideoIntended | app/server/main.py:158-179 | the same checks over the corrected crop of the second Finding: each crop is cut from a frame that shows the player. It always exists for a consistent session |
| Server.RunKeepsConsistent | app/server/main.py:103-105 | every request sequence keeps the stored ids equal to the ids of the stored stream |
| Server.RunEndsWithLastInfer | app/server/main.py:103-105 | after any request sequence, the session is exactly what the last accepted `/infer` built; nothing is merged |
| Server.RunWithoutInfer | app/server/main.py:118-181 | requests other than accepted `/infer` calls never change the session |
| Client.TwoDigits | app/client/main.py:41 | `:02` renders a number below 100 as exactly two digits that read back as it |
| Client.ToVideoTime | app/client/main.py:39-41 | the timestamp has exactly one colon. Before it is a numeral of `n // 60`; after it are two digits reading `n % 60` |
| Client.VideoTimeRoundTrip | app/client/main.py:39-41 | every timestamp reads back as the seconds it came from: minutes times 60 plus a two-digit seconds field below 60, for every integer |
| Client.VideoTimeExample | app/client/main.py:39-41 | 63 seconds is `1:03` and 0 is `0:00` |
| Client.Key | app/client/main.py:110 | the widget key `f"{prefix}{pid}"` starts with its family's prefix and has something after it |
| Client.KeyParsesBack | app/client/main.py:110 | what follows the prefix of a key reads back as the player's id |
| Client.KeyInjective | app/client/main.py:110 | two players never share a widget key of one family |
| Client.AssignEach | app/client/main.py:147-156 | every listed player's key gets the value; no other key changes |
| Client.SetAll | app/client/main.py:147-156 | fails exactly when no player list is stored. Otherwise it writes the value under every listed player's key and changes no other key |
| Client.SetAllCheckboxes | app/client/main.py:153-156 | sets `draw<pid>` for every listed player and touches no other key |
| Client.SetAllInputs | app/client/main.py:147-150 | sets `label<pid>` for every listed player and touches no other key |
| Client.RangeCaption | app/client/main.py:110 | the caption splits on spaces into exactly the start's `M:SS`, a dash and the end's `M:SS` |
| Client.ParseAll | app/client/main.py:99-101 | succeeds exactly when every field is an integer, giving one value per field in order |
| Client.ParseIdsAsWritten | app/client/main.py:99-101 | the program's reader: succeeds exactly when every comma field is an integer, giving them in order. It never yields an empty list, and fails on the empty header |
| Client.ParseIds | app/client/main.py:99-101 | the corrected reader of the first Finding: reads a non-empty header as written, and the empty header as no players |
| Client.ParseRange | app/client/main.py:107-109 | succeeds exactly when the entry has two dash-separated integer parts, and returns them |
| Client.ParseRanges | app/client/main.py:103-109 | succeeds exactly when every entry is a range, giving one pair per entry in order |
| Client.StoreCaptions | app/client/main.py:103-110 | adds exactly the `times<pid>` keys of the paired players; no other key changes |
| Client.StoreCaptionsValues | app/client/main.py:103-110 | with distinct ids, each player gets the caption of the range at its own position |
| Client.RecordTimes | app/client/main.py:103-110 | `zip` pairs the first `min(#ids, #ranges)` of each list. One malformed range fails the whole update |
| Client.ResetWidgets | app/client/main.py:117-118 | every player's box is ticked and label emptied; only those keys are added or changed |
| Client.Show | app/client/main.py:99-118 | once the ids are read: succeeds exactly when every paired range parses and every listed player has a thumbnail in the archive. Then it keeps the models, stores the ids, ticks every box and clears every label |
| Client.Infer | app/client/main.py:82-118 | reads the ids header as written, so it fails on the empty header. Fails exactly without stored models, on an unreadable id, on an unreadable paired range, or when a listed player has no `images/<pid>.jpg` in the archive. A failed request keeps only the models. Otherwise the models are kept, the ids stored in header order, and every box ticked and label cleared |
| Client.ShowNoPlayers | app/client/main.py:99-118 | with no ids, the update stores the empty player list next to the models and nothing else |
| Client.InferIntended | app/client/main.py:82-118 | the corrected `infer` of the first Finding: the same as the program's on every reply except an empty ids header, which it accepts as no players |
| Client.InferKeys | app/client/main.py:86-88 | nothing of the old session survives but `models`. Every other modelled key is the player list or a listed player's caption, box or label |
| Client.InferNeedsThumbnails | app/client/main.py:112-115 | a listed player with no thumbnail in the archive makes `infer` fail, with either reading of the ids header |
| Client.InferRecordsTimes | app/client/main.py:103-110 | with distinct ids, the player paired with range j shows that range's `M:SS - M:SS` caption |
| Protocol.IdsHeaderRoundTrip | app/client/main.py:99-101 | the corrected reader reads back exactly the ids the server joined, in order, for every list including the empty one |
| Protocol.IdsHeaderRoundTripAsWritten | app/client/main.py:99-101 | the program's reader reads back exactly the ids the server joined, in order, for every non-empty list |
| Protocol.EmptyIdsHeaderRejectedAsWritten | app/client/main.py:99-101 | with no players, the header is empty, and the parsing as written fails on it |
| Protocol.RangeRoundTrip | app/client/main.py:107-109 | a `start-end` entry of non-negative seconds reads back as its two numbers |
| Protocol.TimesHeaderRoundTrip | app/client/main.py:103-109 | the first `#ids` entries of the times header read back as each id's start and end, and `zip` pairs all ids |
| Protocol.ClientAcceptsHeaders | app/client/main.py:86-101 | for at least one id, the client's `infer` succeeds on the server's headers, stores the ids in header order and keeps the models |
| Protocol.ClientShowsTimes | app/client/main.py:103-110 | the j-th listed player shows its own start and end as the caption |
| Protocol.ClientReadsHeaders | app/client/main.py:99-118 | for a non-empty id set, each player shows its caption, a ticked box and an empty label |
| Protocol.InferEndToEnd | app/client/main.py:82-118 | after any accepted `/infer` that tracked at least one player, each with a thumbnail in the archive from this run or left on disk by an earlier one, and the client's reading of its headers, each player shows the seconds of its first and last sighting, a ticked box and an empty label. The stored ids are ascending and the models are kept |
| Protocol.ClientRejectsNoPlayers | app/client/main.py:99-101 | after an accepted `/infer` that tracked no player, the client's `infer` fails on the reply, whatever thumbnails are on disk |
| Protocol.IntendedReadsHeaders | app/client/main.py:99-118 | the corrected client reads the headers of any id set, the empty one included, and shows every player's caption, ticked box and empty label |
| Protocol.ClientRejectsUnsavedPlayer | app/client/main.py:112-115 | when a tracked player got no thumbnail in this run and no earlier run left `images/<pid>.jpg` on disk, the client fails on the reply, with either reading of the ids header |
| Protocol.StreamWithinVideoArchivesAll | app/server/video.py:117-125 | a stream no longer than the video gives every tracked player a thumbnail of this run, whatever is on disk |
| Protocol.StaleThumbnailAccepted | app/server/main.py:96-101 | a player tracked only past the video's last frame gets no thumbnail of this run, yet with `images/6.jpg` left by an earlier run the client accepts the reply and lists the player |
| Protocol.InferEndToEndIntended | app/client/main.py:82-118 | with the corrected reader, every accepted `/infer` whose tracked players all have a thumbnail in the archive is read back, including one with no players: the ids are stored in ascending order, each with its caption, ticked box and empty label |

## Left out

- Pixels and video files: decoding, encoding and drawing (moviepy, `bbox_visualizer`, `cv2`) are out. A render is the set of overlays per frame, a crop is a frame index and a window. Frame size and frame count are fields of `Clip`.
- Drawing order: where boxes overlap on one frame, which drawn on top is out, because a render is a map from id to overlay.
- Cropping past the frame: numpy slicing of a window that sticks out of the frame (possible when the player's largest box is bigger than the frame) is out. Only the window itself is modelled.
- Tracker and detector: the ultralytics tracker is a black box whose output is the `tracked` parameter of `Server.Infer`. `Registry` and `tracked` stand for the interface the `/infer` handler expects of the tracking module (app/server/main.py:52-70): a lookup of detector and tracker names, and one set of boxes per frame. The `app/server/tracking.py` shown defines only the `DETECTORS` table; it and `detector/detector.py` are not part of this model.
- Frame rate: `clip.fps` is a float in the source. Here it is an exact rational, so float rounding error in `frame_idx / fps` is not modelled.
- Rounding.RoundHalfEven: takes a non-negative numerator, because frame indices are never negative.
- Files on disk: the upload is written to `results/original.<suffix>` before the name checks. A refused `/infer` with the same suffix therefore replaces the video a live session points to. The model keeps the clip as a value, so that is not modelled. `results/images` is never emptied, so a later archive also carries the thumbnails of earlier runs. The protocol lemmas take the ids of those files as the parameter `onDisk` of `Protocol.ClientReply`; the server's session and request sequences do not carry them.
- The zip archive and the response bodies: packing `annotated.mp4` and the images, and the client storing `video`, `image<pid>` and `focused<pid>` from response bytes, are out. So are `regenerate_video`, `get_focused_video` and `get_models`, which only forward a request and store the bytes.
- Client.Infer: the archive is reduced to the set of ids that have an `images/<pid>.jpg`. A listed id missing from it fails the call, as `archive.read` raises `KeyError`. The `video` and `image<pid>` keys holding the bytes read are not stored.
- Client.InferKeys: the key set it states leaves out the `video` key and the `image<pid>` keys, because the model does not store the archive's bytes.
- Protocol.InferEndToEnd: requires every tracked player to have a thumbnail in the archive. The tracker and moviepy decode the same file, but nothing in the code forces them to agree on the frame count. A player tracked only past the video's last frame gets no thumbnail of this run (`Video.ThumbnailMissingPastClipEnd`). The client then fails when no earlier run left `images/<pid>.jpg` (`Protocol.ClientRejectsUnsavedPlayer`), and succeeds when one did (`Protocol.StaleThumbnailAccepted`). `Protocol.StreamWithinVideoArchivesAll` discharges the requirement for a stream no longer than the video.
- Protocol.InferEndToEndIntended: the same requirement and the same reason.
- Client.Infer: when `int` or the range unpacking raises halfway through, Python leaves the keys written so far in the session. The model returns `None` for the whole call.
- Text.ParseInt: Python's `int` also accepts surrounding whitespace, underscores between digits and non-ASCII digits. The server never emits those, so the model accepts only an optional sign and ASCII digits.
- Client.StoreCaptionsValues: states the captions for distinct ids only, which the server always sends. With a repeated id the later range wins.
- HTTP plumbing: `try_request`'s error handling is reduced to a request that either yields the headers or fails (`None`). FastAPI validation, logging and the Streamlit layout are out.
- The client sends its query parameters as `detector` and `tracker` while the server reads `detector_name` and `tracker_name`. That wire-level mismatch is not modelled: `Server.Infer` takes the names directly.

## Findings

| source | as written | input that shows it | evidently intended | confidence | as-written member | corrected member |
|---|---|---|---|---|---|---|
| app/client/main.py:99-101 | `"".split(",")` is `[""]`, and `int("")` raises | a clip in which no player is tracked: the server sends an empty `player_ids` header, and the client's `infer` fails | an empty header means an empty player list | high; not executed | Protocol.ClientRejectsNoPlayers | Client.InferIntended |
| app/server/video.py:94 | `zip(clip.iter_frames(), rects)` cuts the j-th window out of video frame j | a two-frame clip with player 7 tracked only in frame 1: the one crop is cut from frame 0, where player 7 is not | the j-th window is cut from the frame of the player's j-th appearance | high; not executed | Video.CropToPlayerAsWritten | Video.CropToPlayer |

For the first finding, `Client.Infer` and the `Protocol` lemmas about it follow the program. `Protocol.EmptyIdsHeaderRejectedAsWritten` and `Protocol.ClientRejectsNoPlayers` show the failure. `Client.ParseIds` is the corrected reader. `Protocol.IdsHeaderRoundTrip` proves that it inverts the server's header for every id list. `Protocol.InferEndToEndIntended` proves that `Client.InferIntended` reads back every accepted `/infer`.

For the second, `Server.MakeFocusedVideo` returns the crop as written, as the program does. `Server.MakeFocusedVideoIntended` uses the corrected crop. `Video.CropFramesShowPlayer`, `Video.CropFramesCoverAppearances` and `Video.CropWindowsFit` prove the corrected crop. `Video.CropAsWrittenRightWhenPresentThroughout` shows the two agree when the player is in every frame.

=== FILE: basics.dfy ===
/** Values shared by every module. A Python call that raises is modelled
    as `None` (or `Err`), never as a precondition. */
module Basics {

  datatype Option<+T> = None | Some(value: T)

  datatype Result<+T, +E> = Ok(value: T) | Err(error: E)

  /** How many pairs `zip` yields from sequences of these lengths. */
  function Min(a: int, b: int): int {
    if a <= b then a else b
  }
}

=== FILE: boxstream.dfy ===
/** The tracker's output as the rest of the pipeline sees it: one entry per
    decoded frame, in presentation order, mapping each track id present in
    that frame to its box. A frame the tracker did not tag with ids
    (`is_track` false) is the empty map. */
module BoxStream {
  import opened Geometry

  type Frame = map<int, Rect>

  /** `id` is tracked in some frame. */
  predicate Appears(frames: seq<Frame>, id: int) {
    exists k :: 0 <= k < |frames| && id in frames[k]
  }

  /** Every id tracked anywhere in the stream. */
  function AllIds(frames: seq<Frame>): (ids: set<int>)
    ensures forall id :: id in ids <==> Appears(frames, id)
    decreases |frames|
  {
    if |frames| == 0 then {}
    else
      var prefix := frames[..|frames| - 1];
      var ids := AllIds(prefix) + frames[|frames| - 1].Keys;
      assert forall id :: Appears(frames, id) ==> Appears(prefix, id) || id in frames[|frames| - 1] by {
        forall id | Appears(frames, id)
          ensures Appears(prefix, id) || id in frames[|frames| - 1]
        {
          var k :| 0 <= k < |frames| && id in frames[k];
          if k < |frames| - 1 {
            assert prefix[k] == frames[k];
          }
        }
      }
      assert forall id :: Appears(prefix, id) ==> Appears(frames, id) by {
        forall id | Appears(prefix, id)
          ensures Appears(frames, id)
        {
          var k :| 0 <= k < |prefix| && id in prefix[k];
          assert frames[k] == prefix[k];
        }
      }
      ids
  }

  /** Every frame's ids are among the stream's ids. */
  lemma FrameIdsKnown(frames: seq<Frame>, i: int)
    requires 0 <= i < |frames|
    ensures frames[i].Keys <= AllIds(frames)
  {
  }

  /** Index of the first frame tracking `id`. */
  function FirstSeen(frames: seq<Frame>, id: int): (k: nat)
    requires Appears(frames, id)
    ensures k < |frames| && id in frames[k]
    ensures forall j :: 0 <= j < k ==> id !in frames[j]
    decreases |frames|
  {
    var prefix := frames[..|frames| - 1];
    if Appears(prefix, id) then FirstSeen(prefix, id) else |frames| - 1
  }

  /** Index of the last frame tracking `id`. */
  function LastSeen(frames: seq<Frame>, id: int): (k: nat)
    requires Appears(frames, id)
    ensures k < |frames| && id in frames[k]
    ensures forall j :: k < j < |frames| ==> id !in frames[j]
    decreases |frames|
  {
    if id in frames[|frames| - 1] then |frames| - 1
    else
      var prefix := frames[..|frames| - 1];
      assert Appears(prefix, id) by {
        var k :| 0 <= k < |frames| && id in frames[k];
        assert prefix[k] == frames[k];
      }
      LastSeen(prefix, id)
  }

  /** How one more frame changes the sightings: earlier first sightings
      stay, and the new frame is the last sighting of every id it tracks. */
  lemma SightingsAfterFrame(frames: seq<Frame>)
    requires |frames| > 0
    ensures var prefix, last := frames[..|frames| - 1], frames[|frames| - 1];
            && (forall id :: Appears(prefix, id) ==>
                  Appears(frames, id) && FirstSeen(frames, id) == FirstSeen(prefix, id))
            && (forall id :: id in last && !Appears(prefix, id) ==>
                  Appears(frames, id) && FirstSeen(frames, id) == |frames| - 1)
            && (forall id :: id in last ==> Appears(frames, id) && LastSeen(frames, id) == |frames| - 1)
            && (forall id :: Appears(prefix, id) && id !in last ==>
                  Appears(frames, id) && LastSeen(frames, id) == LastSeen(prefix, id))
  {
    var prefix := frames[..|frames| - 1];
    forall id | Appears(prefix, id)
      ensures Appears(frames, id)
    {
      var k := FirstSeen(prefix, id);
      assert frames[k] == prefix[k];
    }
  }

  lemma FirstSeenNotAfterLastSeen(frames: seq<Frame>, id: int)
    requires Appears(frames, id)
    ensures FirstSeen(frames, id) <= LastSeen(frames, id)
  {
  }

  /** The first appearance in a prefix is the first appearance overall. */
  lemma FirstSeenOfPrefix(frames: seq<Frame>, n: nat, id: int)
    requires n <= |frames| && Appears(frames[..n], id)
    ensures Appears(frames, id)
    ensures FirstSeen(frames[..n], id) == FirstSeen(frames, id)
  {
    var k := FirstSeen(frames[..n], id);
    assert frames[..n][k] == frames[k];
  }

  /** The ascending indices of the frames tracking `id`. */
  function Occurrences(frames: seq<Frame>, id: int): (occ: seq<nat>)
    ensures forall j :: 0 <= j < |occ| ==> occ[j] < |frames| && id in frames[occ[j]]
    ensures forall j, j' :: 0 <= j < j' < |occ| ==> occ[j] < occ[j']
    ensures forall k :: 0 <= k < |frames| && id in frames[k] ==> k in occ
    decreases |frames|
  {
    if |frames| == 0 then []
    else
      var last := |frames| - 1;
      var prefix := frames[..last];
      var before := Occurrences(prefix, id);
      assert forall k :: 0 <= k < last ==> prefix[k] == frames[k];
      before + (if id in frames[last] then [last] else [])
  }

  /** An id has occurrences exactly when it appears. */
  lemma OccurrencesEmpty(frames: seq<Frame>, id: int)
    ensures |Occurrences(frames, id)| == 0 <==> !Appears(frames, id)
  {
    var occ := Occurrences(frames, id);
    if |occ| > 0 {
      assert id in frames[occ[0]];
    }
  }

  /** The boxes of `id`, one per occurrence, in frame order. */
  function PlayerBoxes(frames: seq<Frame>, id: int): (boxes: seq<Rect>)
    ensures |boxes| == |Occurrences(frames, id)|
    ensures forall j :: 0 <= j < |boxes| ==> boxes[j] == frames[Occurrences(frames, id)[j]][id]
  {
    var occ := Occurrences(frames, id);
    seq(|occ|, j requires 0 <= j < |occ| => frames[occ[j]][id])
  }
}

=== FILE: client.dfy ===
/** The client's session logic: the `M:SS` timestamps, reading the two
    headers of an `/infer` reply, and the bulk updates of the per-player
    widgets. Streamlit's session state is a map from string keys to values;
    per-player entries use keys such as `draw7` and `label7`. */
module Client {
  import opened Basics
  import opened Text

  /** What the model needs to tell apart among session values; the model
      lists, video bytes and images are opaque tokens. */
  datatype Value = Flag(on: bool) | Str(text: string) | IdList(ids: seq<int>) | Opaque(token: int)

  type State = map<string, Value>

  const ModelsKey := "models"
  const PlayerIdsKey := "player_ids"
  const TimesPrefix := "times"
  const DrawPrefix := "draw"
  const LabelPrefix := "label"

  // ---------------------------------------------------------------------
  // Timestamps

  /** `f"{k:02}"` for a number below 100: exactly two digits, zero padded. */
  function TwoDigits(k: nat): (s: string)
    requires k < 100
    ensures |s| == 2 && IsNumeral(s) && ParseNat(s) == k
  {
    var s := [DigitChar(k / 10), DigitChar(k % 10)];
    assert s[..1] == [DigitChar(k / 10)];
    s
  }

  /** `to_video_time`: whole minutes, a colon, then the seconds as two
      digits. Python's `//` and `%` by 60 round toward negative infinity,
      as Dafny's do for a positive divisor. */
  function ToVideoTime(n: int): (s: string)
    ensures var parts := Split(s, ':');
            && |parts| == 2
            && ParseInt(parts[0]) == Some(n / 60)
            && |parts[1]| == 2 && IsNumeral(parts[1]) && ParseNat(parts[1]) == n % 60
  {
    var m, sec := n / 60, n % 60;
    IntToStringAvoids(m, ':');
    TwoDigitsAvoids(sec, ':');
    SplitWithoutSep(TwoDigits(sec), ':');
    SplitAfterPiece(IntToString(m), TwoDigits(sec), ':');
    IntRoundTrip(m);
    IntToString(m) + ":" + TwoDigits(sec)
  }

  /** Reads an `M:SS` timestamp back: seconds field of exactly two digits
      below 60. */
  function ParseVideoTime(s: string): Option<int> {
    var parts := Split(s, ':');
    if |parts| == 2 && |parts[1]| == 2 && IsNumeral(parts[1]) && ParseNat(parts[1]) < 60 then
      match ParseInt(parts[0])
      case Some(m) => Some(m * 60 + ParseNat(parts[1]))
      case None => None
    else None
  }

  lemma TwoDigitsAvoids(k: nat, c: char)
    requires k < 100 && !IsDigit(c)
    ensures c !in TwoDigits(k)
  {
    var s := TwoDigits(k);
    assert forall i :: 0 <= i < |s| ==> IsDigit(s[i]);
  }

  /** A timestamp holds only digits, a minus and the colon. */
  lemma VideoTimeAvoids(n: int, c: char)
    requires !IsDigit(c) && c != '-' && c != ':'
    ensures c !in ToVideoTime(n)
  {
    IntToStringAvoids(n / 60, c);
    TwoDigitsAvoids(n % 60, c);
  }

  /** Every timestamp reads back as the number of seconds it was made
      from: minutes times 60 plus a two-digit seconds field below 60. */
  lemma VideoTimeRoundTrip(n: int)
    ensures ParseVideoTime(ToVideoTime(n)) == Some(n)
  {
    var m, sec := n / 60, n % 60;
    IntToStringAvoids(m, ':');
    TwoDigitsAvoids(sec, ':');
    SplitWithoutSep(TwoDigits(sec), ':');
    SplitAfterPiece(IntToString(m), TwoDigits(sec), ':');
    IntRoundTrip(m);
  }

  lemma VideoTimeExample()
    ensures ToVideoTime(63) == "1:03"
    ensures ToVideoTime(0) == "0:00"
  {
  }

  // ---------------------------------------------------------------------
  // Per-player keys

  /** The session key of a per-player widget, `f"{prefix}{pid}"`. */
  function Key(prefix: string, pid: int): (k: string)
    ensures |k| > |prefix| && k[..|prefix|] == prefix
  {
    prefix + IntToString(pid)
  }

  /** What follows the prefix of a key reads back as the player's id. */
  lemma KeyParsesBack(prefix: string, pid: int)
    ensures ParseInt(Key(prefix, pid)[|prefix|..]) == Some(pid)
  {
    assert Key(prefix, pid)[|prefix|..] == IntToString(pid);
    IntRoundTrip(pid);
  }

  /** Keys with one prefix belong to one player each. */
  lemma KeyInjective(prefix: string, a: int, b: int)
    ensures Key(prefix, a) == Key(prefix, b) ==> a == b
  {
    if Key(prefix, a) == Key(prefix, b) {
      assert Key(prefix, a)[|prefix|..] == IntToString(a);
      assert Key(prefix, b)[|prefix|..] == IntToString(b);
      IntToStringInjective(a, b);
    }
  }

  /** The keys `prefix` gives the listed players. */
  function Touched(prefix: string, ids: seq<int>): set<string> {
    set pid | pid in ids :: Key(prefix, pid)
  }

  lemma TouchedMember(prefix: string, ids: seq<int>, pid: int)
    ensures Key(prefix, pid) in Touched(prefix, ids) <==> pid in ids
  {
    if Key(prefix, pid) in Touched(prefix, ids) {
      var q :| q in ids && Key(prefix, q) == Key(prefix, pid);
      KeyInjective(prefix, q, pid);
    }
  }

  lemma TouchedCons(prefix: string, ids: seq<int>)
    requires |ids| > 0
    ensures Touched(prefix, ids) == {Key(prefix, ids[0])} + Touched(prefix, ids[1..])
  {
    assert forall pid :: pid in ids <==> pid == ids[0] || pid in ids[1..];
  }

  /** Every key of a family starts with the family's prefix. */
  lemma TouchedFamily(prefix: string, ids: seq<int>, k: string)
    requires |prefix| > 0 && k in Touched(prefix, ids)
    ensures |k| > 0 && k[0] == prefix[0]
  {
  }

  /** The loop of `set_all_checkboxes` / `set_all_inputs`: write `v` under
      each listed player's key, one player after another. */
  function AssignEach(st: State, prefix: string, ids: seq<int>, v: Value): (r: State)
    ensures r.Keys == st.Keys + Touched(prefix, ids)
    ensures forall pid :: pid in ids ==> r[Key(prefix, pid)] == v
    ensures forall k :: k in st && k !in Touched(prefix, ids) ==> r[k] == st[k]
    decreases |ids|
  {
    if |ids| == 0 then st
    else
      var r := AssignEach(st[Key(prefix, ids[0]) := v], prefix, ids[1..], v);
      TouchedCons(prefix, ids);
      assert forall pid :: pid in ids ==> r[Key(prefix, pid)] == v by {
        forall pid | pid in ids
          ensures r[Key(prefix, pid)] == v
        {
          if pid == ids[0] {
            TouchedMember(prefix, ids[1..], pid);
          } else {
            assert pid in ids[1..];
          }
        }
      }
      r
  }

  /** Set every listed player's widget under `prefix` to `v`; fails when
      no player list is stored. */
  function SetAll(st: State, prefix: string, v: Value): (r: Option<State>)
    ensures r.Some? <==> PlayerIdsKey in st && st[PlayerIdsKey].IdList?
    ensures r.Some? ==>
              var ids := st[PlayerIdsKey].ids;
              && r.value.Keys == st.Keys + Touched(prefix, ids)
              && (forall pid :: pid in ids ==> r.value[Key(prefix, pid)] == v)
              && (forall k :: k in st && k !in Touched(prefix, ids) ==> r.value[k] == st[k])
  {
    if PlayerIdsKey in st && st[PlayerIdsKey].IdList? then
      Some(AssignEach(st, prefix, st[PlayerIdsKey].ids, v))
    else
      None
  }

  /** `set_all_checkboxes`: every player's `draw` box to `on`, nothing else. */
  function SetAllCheckboxes(st: State, on: bool): (r: Option<State>)
    ensures r.Some? <==> PlayerIdsKey in st && st[PlayerIdsKey].IdList?
    ensures r.Some? ==>
              var ids := st[PlayerIdsKey].ids;
              && r.value.Keys == st.Keys + Touched(DrawPrefix, ids)
              && (forall pid :: pid in ids ==> r.value[Key(DrawPrefix, pid)] == Flag(on))
              && (forall k :: k in st && k !in Touched(DrawPrefix, ids) ==> r.value[k] == st[k])
  {
    SetAll(st, DrawPrefix, Flag(on))
  }

  /** `set_all_inputs`: every player's `label` text to `text`, nothing else. */
  function SetAllInputs(st: State, text: string): (r: Option<State>)
    ensures r.Some? <==> PlayerIdsKey in st && st[PlayerIdsKey].IdList?
    ensures r.Some? ==>
              var ids := st[PlayerIdsKey].ids;
              && r.value.Keys == st.Keys + Touched(LabelPrefix, ids)
              && (forall pid :: pid in ids ==> r.value[Key(LabelPrefix, pid)] == Str(text))
              && (forall k :: k in st && k !in Touched(LabelPrefix, ids) ==> r.value[k] == st[k])
  {
    SetAll(st, LabelPrefix, Str(text))
  }

  // ---------------------------------------------------------------------
  // Reading the headers

  /** `[int(x) for x in fields]`; any bad field raises. */
  function ParseAll(fields: seq<string>): (r: Option<seq<int>>)
    ensures r.Some? <==> forall i :: 0 <= i < |fields| ==> ParseInt(fields[i]).Some?
    ensures r.Some? ==> |r.value| == |fields|
    ensures r.Some? ==> forall i :: 0 <= i < |fields| ==> ParseInt(fields[i]) == Some(r.value[i])
    decreases |fields|
  {
    if |fields| == 0 then Some([])
    else
      var rest := ParseAll(fields[1..]);
      assert forall i :: 1 <= i < |fields| ==> fields[1..][i - 1] == fields[i];
      if ParseInt(fields[0]).None? then None
      else if rest.None? then
        var i :| 0 <= i < |fields| - 1 && ParseInt(fields[1..][i]).None?;
        assert ParseInt(fields[i + 1]).None?;
        None
      else Some([ParseInt(fields[0]).value] + rest.value)
  }

  /** The ids header read as written: split on commas, `int` of each. */
  function ParseIdsAsWritten(header: string): (r: Option<seq<int>>)
    ensures r.Some? ==> forall i :: 0 <= i < |Split(header, ',')| ==> ParseInt(Split(header, ',')[i]).Some?
    ensures (forall i :: 0 <= i < |Split(header, ',')| ==> ParseInt(Split(header, ',')[i]).Some?) ==> r.Some?
    ensures r.Some? ==> |r.value| == |Split(header, ',')| > 0
    ensures r.Some? ==> forall i :: 0 <= i < |r.value| ==> ParseInt(Split(header, ',')[i]) == Some(r.value[i])
    ensures header == "" ==> r.None?
  {
    var fields := Split(header, ',');
    assert header == "" ==> fields == [""] && ParseInt(fields[0]).None?;
    ParseAll(fields)
  }

  /** The ids header read so that an empty header means no players. */
  function ParseIds(header: string): (r: Option<seq<int>>)
    ensures header != "" ==> r == ParseIdsAsWritten(header)
    ensures header == "" ==> r == Some([])
  {
    if header == "" then Some([]) else ParseAll(Split(header, ','))
  }

  /** `start_secs, end_secs = time_range.split("-")` followed by `int` of
      each: exactly two integers around a single dash. */
  function ParseRange(field: string): (r: Option<(int, int)>)
    ensures r.Some? <==> |Split(field, '-')| == 2 &&
                         ParseInt(Split(field, '-')[0]).Some? && ParseInt(Split(field, '-')[1]).Some?
    ensures r.Some? ==> ParseInt(Split(field, '-')[0]) == Some(r.value.0) &&
                        ParseInt(Split(field, '-')[1]) == Some(r.value.1)
  {
    var parts := Split(field, '-');
    if |parts| == 2 && ParseInt(parts[0]).Some? && ParseInt(parts[1]).Some? then
      Some((ParseInt(parts[0]).value, ParseInt(parts[1]).value))
    else
      None
  }

  /** Every entry of the times header read as a range; any bad entry raises. */
  function ParseRanges(fields: seq<string>): (r: Option<seq<(int, int)>>)
    ensures r.Some? <==> forall i :: 0 <= i < |fields| ==> ParseRange(fields[i]).Some?
    ensures r.Some? ==> |r.value| == |fields|
    ensures r.Some? ==> forall i :: 0 <= i < |fields| ==> ParseRange(fields[i]) == Some(r.value[i])
    decreases |fields|
  {
    if |fields| == 0 then Some([])
    else
      var rest := ParseRanges(fields[1..]);
      assert forall i :: 1 <= i < |fields| ==> fields[1..][i - 1] == fields[i];
      if ParseRange(fields[0]).None? then None
      else if rest.None? then
        var i :| 0 <= i < |fields| - 1 && ParseRange(fields[1..][i]).None?;
        assert ParseRange(fields[i + 1]).None?;
        None
      else Some([ParseRange(fields[0]).value] + rest.value)
  }

  /** The caption shown under a player's thumbnail. */
  function RangeCaption(start: int, end: int): (c: string)
    ensures Split(c, ' ') == [ToVideoTime(start), "-", ToVideoTime(end)]
  {
    VideoTimeAvoids(start, ' ');
    VideoTimeAvoids(end, ' ');
    SplitAroundDash(ToVideoTime(start), ToVideoTime(end));
    ToVideoTime(start) + " - " + ToVideoTime(end)
  }

  lemma SplitAroundDash(a: string, b: string)
    requires ' ' !in a && ' ' !in b
    ensures Split(a + " - " + b, ' ') == [a, "-", b]
  {
    SplitWithoutSep(b, ' ');
    SplitAfterPiece("-", b, ' ');
    SplitAfterPiece(a, "-" + [' '] + b, ' ');
    assert a + " - " + b == a + [' '] + ("-" + [' '] + b);
  }

  /** Store each player's caption under `times<pid>`, pairing players and
      ranges by position. */
  function StoreCaptions(st: State, ids: seq<int>, pairs: seq<(int, int)>): (r: State)
    requires |ids| == |pairs|
    ensures r.Keys == st.Keys + Touched(TimesPrefix, ids)
    ensures forall k :: k in st && k !in Touched(TimesPrefix, ids) ==> r[k] == st[k]
    decreases |ids|
  {
    if |ids| == 0 then st
    else
      var r := StoreCaptions(st[Key(TimesPrefix, ids[0]) := Str(RangeCaption(pairs[0].0, pairs[0].1))],
                             ids[1..], pairs[1..]);
      TouchedCons(TimesPrefix, ids);
      r
  }

  /** With distinct ids each player's caption is the one built from the
      range at its own position. */
  lemma {:induction false} StoreCaptionsValues(st: State, ids: seq<int>, pairs: seq<(int, int)>)
    requires |ids| == |pairs|
    requires forall i, j :: 0 <= i < j < |ids| ==> ids[i] != ids[j]
    ensures forall j :: 0 <= j < |ids| ==>
              StoreCaptions(st, ids, pairs)[Key(TimesPrefix, ids[j])] ==
                Str(RangeCaption(pairs[j].0, pairs[j].1))
    decreases |ids|
  {
    if |ids| > 0 {
      var st' := st[Key(TimesPrefix, ids[0]) := Str(RangeCaption(pairs[0].0, pairs[0].1))];
      StoreCaptionsValues(st', ids[1..], pairs[1..]);
      TouchedMember(TimesPrefix, ids[1..], ids[0]);
      forall j | 1 <= j < |ids|
        ensures StoreCaptions(st, ids, pairs)[Key(TimesPrefix, ids[j])] ==
                Str(RangeCaption(pairs[j].0, pairs[j].1))
      {
        assert ids[1..][j - 1] == ids[j];
        assert pairs[1..][j - 1] == pairs[j];
      }
    }
  }

  /** The loop over `zip(player_ids, ranges)`: `zip` stops at the shorter
      list, and a malformed range raises, which discards the whole update. */
  function RecordTimes(st: State, ids: seq<int>, ranges: seq<string>): (r: Option<State>)
    ensures r.Some? <==> ParseRanges(ranges[..Min(|ids|, |ranges|)]).Some?
    ensures r.Some? ==> r.value == StoreCaptions(st, ids[..Min(|ids|, |ranges|)],
                                                 ParseRanges(ranges[..Min(|ids|, |ranges|)]).value)
  {
    var n := Min(|ids|, |ranges|);
    match ParseRanges(ranges[..n])
    case None => None
    case Some(pairs) => Some(StoreCaptions(st, ids[..n], pairs))
  }

  // ---------------------------------------------------------------------
  // infer

  /** An `/infer` reply: its two headers, and the ids that have an
      `images/<pid>.jpg` in the archive. `None` stands for a failed request. */
  datatype Reply = Reply(playerIds: string, playerTimes: string, images: set<int>)

  /** The fixed keys and the three per-player key families never collide. */
  lemma InferKeysDistinct(ids: seq<int>)
    ensures ModelsKey !in Touched(TimesPrefix, ids) && PlayerIdsKey !in Touched(TimesPrefix, ids)
    ensures ModelsKey !in Touched(DrawPrefix, ids) && PlayerIdsKey !in Touched(DrawPrefix, ids)
    ensures ModelsKey !in Touched(LabelPrefix, ids) && PlayerIdsKey !in Touched(LabelPrefix, ids)
    ensures Touched(TimesPrefix, ids) !! Touched(DrawPrefix, ids)
    ensures Touched(TimesPrefix, ids) !! Touched(LabelPrefix, ids)
    ensures Touched(DrawPrefix, ids) !! Touched(LabelPrefix, ids)
  {
    forall k | k in Touched(TimesPrefix, ids)
      ensures k[0] == 't'
    {
      TouchedFamily(TimesPrefix, ids, k);
    }
    forall k | k in Touched(DrawPrefix, ids)
      ensures k[0] == 'd'
    {
      TouchedFamily(DrawPrefix, ids, k);
    }
    forall k | k in Touched(LabelPrefix, ids)
      ensures k[0] == 'l'
    {
      TouchedFamily(LabelPrefix, ids, k);
    }
  }

  /** The last two steps of `infer`: tick every box, clear every label. */
  function ResetWidgets(st: State, ids: seq<int>): (r: State)
    requires PlayerIdsKey in st && st[PlayerIdsKey] == IdList(ids)
    ensures r.Keys == st.Keys + Touched(DrawPrefix, ids) + Touched(LabelPrefix, ids)
    ensures forall pid :: pid in ids ==>
              && Key(DrawPrefix, pid) in r && r[Key(DrawPrefix, pid)] == Flag(true)
              && Key(LabelPrefix, pid) in r && r[Key(LabelPrefix, pid)] == Str("")
    ensures forall k :: k in st && k !in Touched(DrawPrefix, ids) && k !in Touched(LabelPrefix, ids) ==>
              r[k] == st[k]
  {
    InferKeysDistinct(ids);
    var ticked := SetAllCheckboxes(st, true).value;
    SetAllInputs(ticked, "").value
  }

  /** What `infer` does once the ids are read: keep the model lists, store
      the ids and the captions of the players paired with a range, read
      every listed player's thumbnail out of the archive (a missing one
      raises), and reset the widgets. */
  function Show(st: State, ids: seq<int>, times: string, images: set<int>): (r: Option<State>)
    requires ModelsKey in st
    ensures var fields := Split(times, ',');
            r.Some? <==> ParseRanges(fields[..Min(|ids|, |fields|)]).Some? &&
                         forall pid :: pid in ids ==> pid in images
    ensures r.Some? ==> ModelsKey in r.value && r.value[ModelsKey] == st[ModelsKey]
    ensures r.Some? ==>
              && PlayerIdsKey in r.value && r.value[PlayerIdsKey] == IdList(ids)
              && (forall pid :: pid in ids ==>
                    && Key(DrawPrefix, pid) in r.value && r.value[Key(DrawPrefix, pid)] == Flag(true)
                    && Key(LabelPrefix, pid) in r.value && r.value[Key(LabelPrefix, pid)] == Str(""))
  {
    var withIds := map[ModelsKey := st[ModelsKey]][PlayerIdsKey := IdList(ids)];
    match RecordTimes(withIds, ids, Split(times, ','))
    case None => None
    case Some(timed) =>
      if exists pid :: pid in ids && pid !in images then None
      else
        InferKeysDistinct(ids);
        Some(ResetWidgets(timed, ids))
  }

  /** `infer`: keep only the detector and tracker lists, then, if the
      request succeeded, store the player ids, each player's time caption,
      and fresh widgets (all boxes ticked, all labels empty). The ids header
      is read as written, so an empty header fails, and a listed player
      without a thumbnail in the archive fails too. */
  function Infer(st: State, reply: Option<Reply>): (r: Option<State>)
    ensures r.Some? <==>
              (ModelsKey in st &&
               (reply.Some? ==>
                  ParseIdsAsWritten(reply.value.playerIds).Some? &&
                  var ids := ParseIdsAsWritten(reply.value.playerIds).value;
                  var fields := Split(reply.value.playerTimes, ',');
                  ParseRanges(fields[..Min(|ids|, |fields|)]).Some? &&
                  forall pid :: pid in ids ==> pid in reply.value.images))
    ensures reply.None? && r.Some? ==> r.value == map[ModelsKey := st[ModelsKey]]
    ensures r.Some? ==> ModelsKey in r.value && r.value[ModelsKey] == st[ModelsKey]
    ensures r.Some? && reply.Some? ==>
              var ids := ParseIdsAsWritten(reply.value.playerIds).value;
              && PlayerIdsKey in r.value && r.value[PlayerIdsKey] == IdList(ids)
              && (forall pid :: pid in ids ==>
                    && Key(DrawPrefix, pid) in r.value && r.value[Key(DrawPrefix, pid)] == Flag(true)
                    && Key(LabelPrefix, pid) in r.value && r.value[Key(LabelPrefix, pid)] == Str(""))
  {
    if ModelsKey !in st then None
    else
      match reply
      case None => Some(map[ModelsKey := st[ModelsKey]])
      case Some(rep) =>
        match ParseIdsAsWritten(rep.playerIds)
        case None => None
        case Some(ids) => Show(st, ids, rep.playerTimes, rep.images)
  }

  /** With no players, `infer` stores the empty list next to the model
      lists and nothing else. */
  lemma ShowNoPlayers(st: State, times: string, images: set<int>)
    requires ModelsKey in st
    ensures Show(st, [], times, images) == Some(map[ModelsKey := st[ModelsKey], PlayerIdsKey := IdList([])])
  {
    var withIds := map[ModelsKey := st[ModelsKey]][PlayerIdsKey := IdList([])];
    var fields := Split(times, ',');
    assert fields[..Min(0, |fields|)] == [];
    var timed := RecordTimes(withIds, [], fields).value;
    assert timed.Keys == withIds.Keys;
    var reset := ResetWidgets(timed, []);
    assert reset.Keys == withIds.Keys;
    assert reset == withIds;
  }

  /** `infer` with the corrected reading of the ids header (`ParseIds`): a
      reply without players is accepted and lists none. On every other
      reply it is the program's `infer`. */
  function InferIntended(st: State, reply: Option<Reply>): (r: Option<State>)
    ensures reply.None? || reply.value.playerIds != "" ==> r == Infer(st, reply)
    ensures reply.Some? && reply.value.playerIds == "" ==>
              && (r.Some? <==> ModelsKey in st)
              && (r.Some? ==> r.value == map[ModelsKey := st[ModelsKey], PlayerIdsKey := IdList([])])
  {
    if ModelsKey !in st then None
    else
      match reply
      case None => Some(map[ModelsKey := st[ModelsKey]])
      case Some(rep) =>
        if rep.playerIds == "" then ShowNoPlayers(st, rep.playerTimes, rep.images); Show(st, [], rep.playerTimes, rep.images)
        else
          match ParseIds(rep.playerIds)
          case None => None
          case Some(ids) => Show(st, ids, rep.playerTimes, rep.images)
  }

  /** A listed player without a thumbnail in the archive fails `infer`,
      with either reading of the ids header. */
  lemma InferNeedsThumbnails(st: State, rep: Reply, ids: seq<int>, pid: int)
    requires ParseIdsAsWritten(rep.playerIds) == Some(ids)
    requires pid in ids && pid !in rep.images
    ensures Infer(st, Some(rep)).None?
    ensures rep.playerIds != "" ==> InferIntended(st, Some(rep)).None?
  {
  }

  /** The state a successful `infer` leaves, step by step. */
  lemma InferSteps(st: State, rep: Reply, ids: seq<int>)
    requires Infer(st, Some(rep)).Some?
    requires ParseIdsAsWritten(rep.playerIds) == Some(ids)
    ensures var fields := Split(rep.playerTimes, ',');
            var n := Min(|ids|, |fields|);
            var withIds := map[ModelsKey := st[ModelsKey]][PlayerIdsKey := IdList(ids)];
            && ParseRanges(fields[..n]).Some?
            && |ParseRanges(fields[..n]).value| == n
            && PlayerIdsKey !in Touched(TimesPrefix, ids[..n])
            && Infer(st, Some(rep)).value ==
                 ResetWidgets(StoreCaptions(withIds, ids[..n], ParseRanges(fields[..n]).value), ids)
  {
    InferKeysDistinct(ids[..Min(|ids|, |Split(rep.playerTimes, ',')|)]);
  }

  /** A caption stored before the widgets are reset survives the reset. */
  lemma ResetKeepsCaption(st: State, ids: seq<int>, pid: int)
    requires PlayerIdsKey in st && st[PlayerIdsKey] == IdList(ids)
    requires Key(TimesPrefix, pid) in st
    ensures ResetWidgets(st, ids)[Key(TimesPrefix, pid)] == st[Key(TimesPrefix, pid)]
  {
    var key := Key(TimesPrefix, pid);
    assert key[0] == 't';
    if key in Touched(DrawPrefix, ids) {
      TouchedFamily(DrawPrefix, ids, key);
    }
    if key in Touched(LabelPrefix, ids) {
      TouchedFamily(LabelPrefix, ids, key);
    }
  }

  /** Storing the captions and then resetting the widgets leaves player
      `ids[j]` with the caption of the j-th range. */
  lemma CaptionAfterReset(st: State, ids: seq<int>, pairs: seq<(int, int)>, n: nat, j: nat)
    requires n <= |ids| && |pairs| == n && j < n
    requires PlayerIdsKey in st && st[PlayerIdsKey] == IdList(ids)
    requires PlayerIdsKey !in Touched(TimesPrefix, ids[..n])
    requires forall a, b :: 0 <= a < b < |ids| ==> ids[a] != ids[b]
    ensures var timed := StoreCaptions(st, ids[..n], pairs);
            && PlayerIdsKey in timed && timed[PlayerIdsKey] == IdList(ids)
            && Key(TimesPrefix, ids[j]) in ResetWidgets(timed, ids)
            && ResetWidgets(timed, ids)[Key(TimesPrefix, ids[j])] == Str(RangeCaption(pairs[j].0, pairs[j].1))
  {
    var timed := StoreCaptions(st, ids[..n], pairs);
    StoreCaptionsValues(st, ids[..n], pairs);
    assert ids[..n][j] == ids[j];
    TouchedMember(TimesPrefix, ids[..n], ids[j]);
    ResetKeepsCaption(timed, ids, ids[j]);
  }

  /** After a successful `infer` with distinct player ids, every player
      paired with a range shows that range's caption. */
  lemma InferRecordsTimes(st: State, rep: Reply, ids: seq<int>, j: int)
    requires Infer(st, Some(rep)).Some?
    requires ParseIdsAsWritten(rep.playerIds) == Some(ids)
    requires forall a, b :: 0 <= a < b < |ids| ==> ids[a] != ids[b]
    requires 0 <= j < Min(|ids|, |Split(rep.playerTimes, ',')|)
    ensures var pairs := ParseRanges(Split(rep.playerTimes, ',')[..Min(|ids|, |Split(rep.playerTimes, ',')|)]).value;
            && Key(TimesPrefix, ids[j]) in Infer(st, Some(rep)).value
            && Infer(st, Some(rep)).value[Key(TimesPrefix, ids[j])] == Str(RangeCaption(pairs[j].0, pairs[j].1))
  {
    var fields := Split(rep.playerTimes, ',');
    var n := Min(|ids|, |fields|);
    InferSteps(st, rep, ids);
    InferKeysDistinct(ids[..n]);
    CaptionAfterReset(map[ModelsKey := st[ModelsKey]][PlayerIdsKey := IdList(ids)], ids,
                      ParseRanges(fields[..n]).value, n, j);
  }

  /** A successful `infer` leaves nothing of the previous session but the
      model lists: every other key is the player list or belongs to a
      listed player (a caption for those paired with a range, a box and a
      label for all). */
  lemma InferKeys(st: State, rep: Reply, ids: seq<int>)
    requires Infer(st, Some(rep)).Some?
    requires ParseIdsAsWritten(rep.playerIds) == Some(ids)
    ensures Infer(st, Some(rep)).value.Keys ==
              {ModelsKey, PlayerIdsKey} + Touched(TimesPrefix, ids[..Min(|ids|, |Split(rep.playerTimes, ',')|)])
              + Touched(DrawPrefix, ids) + Touched(LabelPrefix, ids)
  {
    InferSteps(st, rep, ids);
  }
}

=== FILE: geometry.dfy ===
/** Integer interval and rectangle arithmetic behind the focused crop:
    `Rect`, `fit_interval` and the symmetric padding of `crop_to_player`. */
module Geometry {

  /** A box in pixel coordinates, corners (x1, y1) and (x2, y2); the
      half-open span [x1, x2) x [y1, y2) is what a crop cuts out. */
  datatype Rect = Rect(x1: int, y1: int, x2: int, y2: int) {

    function Width(): int {
      x2 - x1
    }

    function Height(): int {
      y2 - y1
    }

    /** Lies inside a frame of the given size. */
    predicate Within(frameW: int, frameH: int) {
      0 <= x1 && x2 <= frameW && 0 <= y1 && y2 <= frameH
    }

    predicate Contains(r: Rect) {
      x1 <= r.x1 && r.x2 <= x2 && y1 <= r.y1 && r.y2 <= y2
    }
  }

  function Abs(n: int): nat {
    if n < 0 then -n else n
  }

  /** Translating [left, right) by `d` lands inside [minLim, maxLim]. */
  predicate ShiftFits(left: int, right: int, minLim: int, maxLim: int, d: int) {
    minLim <= left + d && right + d <= maxLim
  }

  /** `fit_interval`: move [left, right) into [minLim, maxLim] without
      changing its length, pushing it right if it starts too low, otherwise
      left if it ends too high. */
  function FitInterval(left: int, right: int, minLim: int, maxLim: int): (r: (int, int))
    ensures r.1 - r.0 == right - left
    ensures minLim <= left && right <= maxLim ==> r == (left, right)
    ensures left < minLim ==> r.0 == minLim
    ensures minLim <= left && maxLim < right ==> r.1 == maxLim
    ensures right - left <= maxLim - minLim ==> minLim <= r.0 && r.1 <= maxLim
    ensures forall d :: ShiftFits(left, right, minLim, maxLim, d) ==> Abs(r.0 - left) <= Abs(d)
  {
    var add :=
      if left < minLim then minLim - left
      else if right > maxLim then maxLim - right
      else 0;
    (left + add, right + add)
  }

  /** When the interval fits, fitting twice is fitting once. */
  lemma FitIntervalIdempotent(left: int, right: int, minLim: int, maxLim: int)
    requires right - left <= maxLim - minLim
    ensures var (l, r) := FitInterval(left, right, minLim, maxLim);
            FitInterval(l, r, minLim, maxLim) == (l, r)
  {
  }

  /** Without room for the interval, fitting oscillates instead of settling. */
  lemma FitIntervalNotIdempotentWhenTooLong()
    ensures FitInterval(0, 10, 0, 5) == (-5, 5)
    ensures FitInterval(-5, 5, 0, 5) == (0, 10)
  {
  }

  /** The padding step of `crop_to_player` on one axis: widen [lo, hi) to
      `size`, splitting the extra evenly with the odd pixel on the high side. */
  function Grow(lo: int, hi: int, size: int): (r: (int, int))
    ensures r.1 - r.0 == size
    ensures hi - lo <= size ==> r.0 <= lo && hi <= r.1
    ensures hi - lo <= size ==> lo - r.0 <= r.1 - hi <= lo - r.0 + 1
  {
    var extra := size - (hi - lo);
    (lo - extra / 2, hi + extra / 2 + extra % 2)
  }

  /** Grow then fit, on one axis; keeps a box that was already in range. */
  function GrowAndFit(lo: int, hi: int, size: int, limit: int): (r: (int, int))
    ensures r.1 - r.0 == size
    ensures size <= limit ==> 0 <= r.0 && r.1 <= limit
    ensures hi - lo <= size <= limit && 0 <= lo && hi <= limit ==> r.0 <= lo && hi <= r.1
  {
    var (a, b) := Grow(lo, hi, size);
    FitInterval(a, b, 0, limit)
  }

  /** The crop window of one appearance: a `w` x `h` box around `r`, moved
      inside a `frameW` x `frameH` frame. */
  function PadToSize(r: Rect, w: int, h: int, frameW: int, frameH: int): (p: Rect)
    ensures p.Width() == w && p.Height() == h
    ensures w <= frameW && h <= frameH ==> p.Within(frameW, frameH)
    ensures r.Width() <= w <= frameW && r.Height() <= h <= frameH && r.Within(frameW, frameH)
            ==> p.Contains(r)
  {
    var (x1, x2) := GrowAndFit(r.x1, r.x2, w, frameW);
    var (y1, y2) := GrowAndFit(r.y1, r.y2, h, frameH);
    Rect(x1, y1, x2, y2)
  }
}

=== FILE: protocol.dfy ===
/** The `/infer` exchange seen from both ends: what the server writes into
    the `player_ids` and `player_times` headers, and what the client reads
    back out of them. */
module Protocol {
  import opened Basics
  import opened Text
  import opened Rounding
  import opened Geometry
  import opened BoxStream
  import opened Video
  import opened Sorting
  import Server
  import Client

  /** Reading the numerals of a list of ids gives the ids back. */
  lemma ParseIdFields(ids: seq<int>)
    ensures Client.ParseAll(Server.IdFields(ids)) == Some(ids)
  {
    var fields := Server.IdFields(ids);
    forall i | 0 <= i < |fields|
      ensures ParseInt(fields[i]) == Some(ids[i])
    {
      IntRoundTrip(ids[i]);
    }
    var r := Client.ParseAll(fields);
    assert r.Some?;
    assert r.value == ids;
  }

  /** The corrected reader reads back exactly the ids the server wrote, in
      the same order, including the empty list. */
  lemma IdsHeaderRoundTrip(ids: seq<int>)
    ensures Client.ParseIds(Server.IdsHeader(ids)) == Some(ids)
  {
    if |ids| > 0 {
      ParseIdFields(ids);
    }
  }

  /** As written, the client cannot read the header of an empty id list:
      the empty header splits into one empty field, which is not a number. */
  lemma EmptyIdsHeaderRejectedAsWritten()
    ensures Server.IdsHeader([]) == ""
    ensures Client.ParseIdsAsWritten(Server.IdsHeader([])) == None
  {
    assert Split("", ',') == [""];
    assert Client.ParseAll([""]).None? by {
      assert ParseInt("") == None;
    }
  }

  /** A `start-end` entry of non-negative seconds reads back as the pair
      it was written from. */
  lemma RangeRoundTrip(a: nat, b: nat)
    ensures Client.ParseRange(Server.RangeText(a, b)) == Some((a, b))
  {
    var sa, sb := IntToString(a), IntToString(b);
    assert forall i :: 0 <= i < |sa| ==> IsDigit(sa[i]);
    assert forall i :: 0 <= i < |sb| ==> IsDigit(sb[i]);
    SplitWithoutSep(sb, '-');
    SplitAfterPiece(sa, sb, '-');
    assert Server.RangeText(a, b) == sa + ['-'] + sb;
    IntRoundTrip(a);
    IntRoundTrip(b);
  }

  /** The pairs the times header carries, in header order. */
  function TimePairs(ids: seq<int>, t: Times): (pairs: seq<(int, int)>)
    requires forall i :: 0 <= i < |ids| ==> ids[i] in t.start && ids[i] in t.end
    ensures |pairs| == |ids|
    ensures forall i :: 0 <= i < |ids| ==> pairs[i] == (t.start[ids[i]] as int, t.end[ids[i]] as int)
  {
    seq(|ids|, i requires 0 <= i < |ids| => (t.start[ids[i]] as int, t.end[ids[i]] as int))
  }

  /** The first `|ids|` entries of the times header read back as each
      listed id's start and end second. */
  lemma TimesHeaderRoundTrip(ids: seq<int>, t: Times)
    requires forall i :: 0 <= i < |ids| ==> ids[i] in t.start && ids[i] in t.end
    ensures var fields := Split(Server.TimesHeader(ids, t), ',');
            && Min(|ids|, |fields|) == |ids|
            && Client.ParseRanges(fields[..|ids|]) == Some(TimePairs(ids, t))
  {
    var fields := Split(Server.TimesHeader(ids, t), ',');
    if |ids| > 0 {
      assert fields == Server.TimeFields(ids, t);
      forall i | 0 <= i < |ids|
        ensures Client.ParseRange(fields[i]) == Some(TimePairs(ids, t)[i])
      {
        RangeRoundTrip(t.start[ids[i]], t.end[ids[i]]);
      }
      assert fields[..|ids|] == fields;
      var r := Client.ParseRanges(fields);
      assert r.Some?;
      assert r.value == TimePairs(ids, t);
    }
  }

  /** What the client stores after reading a successful `/infer` reply. */
  predicate ShowsPlayers(r: Client.State, ids: set<int>, t: Times)
    requires forall id :: id in ids ==> id in t.start && id in t.end
  {
    && Client.PlayerIdsKey in r && r[Client.PlayerIdsKey] == Client.IdList(SortedIds(ids))
    && (forall pid :: pid in ids ==>
          && Client.Key(Client.TimesPrefix, pid) in r
          && r[Client.Key(Client.TimesPrefix, pid)] == Client.Str(Client.RangeCaption(t.start[pid], t.end[pid]))
          && Client.Key(Client.DrawPrefix, pid) in r
          && r[Client.Key(Client.DrawPrefix, pid)] == Client.Flag(true)
          && Client.Key(Client.LabelPrefix, pid) in r
          && r[Client.Key(Client.LabelPrefix, pid)] == Client.Str(""))
  }

  /** The reply headers for the ids in `order` and their times, with the
      archive holding thumbnails for `images`. */
  function Headers(order: seq<int>, t: Times, images: set<int>): Client.Reply
    requires forall i :: 0 <= i < |order| ==> order[i] in t.start && order[i] in t.end
  {
    Client.Reply(Server.IdsHeader(order), Server.TimesHeader(order, t), images)
  }

  /** The client's view of a server reply. `results/images` is never
      emptied, and the archive packs every file in it: the thumbnails of
      this run and those of the ids in `onDisk`, which earlier runs left
      there. */
  function ClientReply(reply: Server.InferReply, onDisk: set<int>): Client.Reply {
    Client.Reply(reply.playerIdsHeader, reply.playerTimesHeader, onDisk + reply.images.Keys)
  }

  /** The program's reader reads back every non-empty id list. */
  lemma IdsHeaderRoundTripAsWritten(ids: seq<int>)
    requires |ids| > 0
    ensures Client.ParseIdsAsWritten(Server.IdsHeader(ids)) == Some(ids)
  {
    ParseIdFields(ids);
  }

  /** The client's `infer` on the headers of at least one player succeeds,
      stores the ids in header order and keeps the model lists. */
  lemma ClientAcceptsHeaders(st: Client.State, order: seq<int>, t: Times, images: set<int>)
    requires Client.ModelsKey in st
    requires |order| > 0
    requires forall i :: 0 <= i < |order| ==> order[i] in t.start && order[i] in t.end
    requires forall i :: 0 <= i < |order| ==> order[i] in images
    ensures var r := Client.Infer(st, Some(Headers(order, t, images)));
            && r.Some?
            && r.value[Client.ModelsKey] == st[Client.ModelsKey]
            && Client.PlayerIdsKey in r.value && r.value[Client.PlayerIdsKey] == Client.IdList(order)
  {
    IdsHeaderRoundTripAsWritten(order);
    TimesHeaderRoundTrip(order, t);
  }

  /** The j-th listed player's caption after the client reads the headers
      of distinct ids. */
  lemma ClientShowsTimes(st: Client.State, order: seq<int>, t: Times, images: set<int>, j: nat)
    requires Client.ModelsKey in st
    requires forall i :: 0 <= i < |order| ==> order[i] in t.start && order[i] in t.end
    requires forall i :: 0 <= i < |order| ==> order[i] in images
    requires forall a, b :: 0 <= a < b < |order| ==> order[a] != order[b]
    requires j < |order|
    ensures var r := Client.Infer(st, Some(Headers(order, t, images)));
            && r.Some?
            && Client.Key(Client.TimesPrefix, order[j]) in r.value
            && r.value[Client.Key(Client.TimesPrefix, order[j])] ==
                 Client.Str(Client.RangeCaption(t.start[order[j]], t.end[order[j]]))
  {
    var rep := Headers(order, t, images);
    ClientAcceptsHeaders(st, order, t, images);
    IdsHeaderRoundTripAsWritten(order);
    TimesHeaderRoundTrip(order, t);
    Client.InferRecordsTimes(st, rep, order, j);
  }

  /** The client's `infer` on the headers built from a non-empty set of
      ascending ids and their times succeeds and shows every player with
      its own times. */
  lemma ClientReadsHeaders(st: Client.State, ids: set<int>, t: Times, images: set<int>)
    requires Client.ModelsKey in st
    requires ids != {}
    requires forall id :: id in ids ==> id in t.start && id in t.end
    requires ids <= images
    ensures var r := Client.Infer(st, Some(Headers(SortedIds(ids), t, images)));
            && r.Some?
            && r.value[Client.ModelsKey] == st[Client.ModelsKey]
            && ShowsPlayers(r.value, ids, t)
  {
    var order := SortedIds(ids);
    assert |order| > 0 by {
      assert |order| == |ids|;
    }
    ClientAcceptsHeaders(st, order, t, images);
    forall pid | pid in ids
      ensures var r := Client.Infer(st, Some(Headers(order, t, images))).value;
              && Client.Key(Client.TimesPrefix, pid) in r
              && r[Client.Key(Client.TimesPrefix, pid)] == Client.Str(Client.RangeCaption(t.start[pid], t.end[pid]))
    {
      var j :| 0 <= j < |order| && order[j] == pid;
      ClientShowsTimes(st, order, t, images, j);
    }
  }

  /** The corrected client reads the headers of any set of ids, the empty
      one included, and shows every player with its own times. */
  lemma IntendedReadsHeaders(st: Client.State, ids: set<int>, t: Times, images: set<int>)
    requires Client.ModelsKey in st
    requires forall id :: id in ids ==> id in t.start && id in t.end
    requires ids <= images
    ensures var r := Client.InferIntended(st, Some(Headers(SortedIds(ids), t, images)));
            && r.Some?
            && r.value[Client.ModelsKey] == st[Client.ModelsKey]
            && ShowsPlayers(r.value, ids, t)
  {
    var order := SortedIds(ids);
    if ids == {} {
      assert order == [];
      EmptyIdsHeaderRejectedAsWritten();
    } else {
      assert |order| > 0 by {
        assert |order| == |ids|;
      }
      ClientReadsHeaders(st, ids, t, images);
    }
  }

  /** End to end: after a successful `/infer` that tracked at least one
      player, each with a thumbnail in the archive, the client lists the
      stream's ids in ascending order and shows each player's first and
      last second, a ticked box and an empty label, and keeps the model
      lists. */
  lemma InferEndToEnd(st: Client.State, s: Server.Session, reg: Server.Registry, detector: string,
                      tracker: string, clip: Clip, tracked: seq<Frame>, onDisk: set<int>)
    requires Client.ModelsKey in st
    requires detector in reg.detectors && tracker in reg.trackers
    requires AllIds(tracked) != {}
    requires AllIds(tracked) <= onDisk + PlayerImages(clip, tracked).Keys
    ensures var reply := Server.Infer(s, reg, detector, tracker, clip, tracked).1.value;
            var r := Client.Infer(st, Some(ClientReply(reply, onDisk)));
            && r.Some?
            && r.value[Client.ModelsKey] == st[Client.ModelsKey]
            && ShowsPlayers(r.value, AllIds(tracked), PlayerTimes(tracked, clip.fps))
            && (forall pid :: pid in AllIds(tracked) ==>
                  r.value[Client.Key(Client.TimesPrefix, pid)] ==
                    Client.Str(Client.RangeCaption(Seconds(FirstSeen(tracked, pid), clip.fps),
                                                   Seconds(LastSeen(tracked, pid), clip.fps))))
  {
    Server.InferReplyHeaders(s, reg, detector, tracker, clip, tracked);
    ClientReadsHeaders(st, AllIds(tracked), PlayerTimes(tracked, clip.fps), onDisk + PlayerImages(clip, tracked).Keys);
  }

  /** A stream no longer than the video gives every tracked player a
      thumbnail of this run, whatever earlier runs left on disk. */
  lemma StreamWithinVideoArchivesAll(clip: Clip, tracked: seq<Frame>, onDisk: set<int>)
    requires |tracked| <= clip.frameCount
    ensures AllIds(tracked) <= onDisk + PlayerImages(clip, tracked).Keys
  {
    PlayerImagesCoverStream(clip, tracked);
  }

  /** A thumbnail an earlier run left on disk stands in for one this run
      did not save: player 6, tracked only past the video's last frame,
      has no thumbnail of this run, yet with `images/6.jpg` left on disk
      the client accepts the reply and lists the player. */
  lemma StaleThumbnailAccepted(st: Client.State, s: Server.Session, reg: Server.Registry, detector: string,
                               tracker: string)
    requires Client.ModelsKey in st
    requires detector in reg.detectors && tracker in reg.trackers
    ensures var clip := Clip("v", 1, 10, 10, Fps(1, 1));
            var tracked := [map[], map[6 := Rect(0, 0, 1, 1)]];
            var reply := Server.Infer(s, reg, detector, tracker, clip, tracked).1.value;
            var r := Client.Infer(st, Some(ClientReply(reply, {6})));
            && 6 !in PlayerImages(clip, tracked)
            && r.Some?
            && Client.Key(Client.DrawPrefix, 6) in r.value
  {
    var clip := Clip("v", 1, 10, 10, Fps(1, 1));
    var tracked: seq<Frame> := [map[], map[6 := Rect(0, 0, 1, 1)]];
    ThumbnailMissingPastClipEnd();
    assert AllIds(tracked) <= {6} by {
      forall id | id in AllIds(tracked) ensures id == 6 {
        var k :| 0 <= k < |tracked| && id in tracked[k];
      }
    }
    InferEndToEnd(st, s, reg, detector, tracker, clip, tracked, {6});
  }

  /** As written, the client fails on the reply to an `/infer` that
      tracked no player: the server sends an empty ids header. */
  lemma ClientRejectsNoPlayers(st: Client.State, s: Server.Session, reg: Server.Registry, detector: string,
                               tracker: string, clip: Clip, tracked: seq<Frame>)
    requires detector in reg.detectors && tracker in reg.trackers
    requires AllIds(tracked) == {}
    ensures var reply := Server.Infer(s, reg, detector, tracker, clip, tracked).1.value;
            forall onDisk :: Client.Infer(st, Some(ClientReply(reply, onDisk))).None?
  {
    Server.InferReplyHeaders(s, reg, detector, tracker, clip, tracked);
    assert SortedIds(AllIds(tracked)) == [];
    EmptyIdsHeaderRejectedAsWritten();
  }

  /** The client fails on the reply to an `/infer` in which some tracked
      player has no thumbnail, neither from this run nor left on disk by
      an earlier one: reading `images/<pid>.jpg` raises. */
  lemma ClientRejectsUnsavedPlayer(st: Client.State, s: Server.Session, reg: Server.Registry, detector: string,
                                   tracker: string, clip: Clip, tracked: seq<Frame>, onDisk: set<int>, pid: int)
    requires detector in reg.detectors && tracker in reg.trackers
    requires pid in AllIds(tracked) && pid !in PlayerImages(clip, tracked) && pid !in onDisk
    ensures var reply := Server.Infer(s, reg, detector, tracker, clip, tracked).1.value;
            Client.Infer(st, Some(ClientReply(reply, onDisk))).None?
            && Client.InferIntended(st, Some(ClientReply(reply, onDisk))).None?
  {
    var reply := Server.Infer(s, reg, detector, tracker, clip, tracked).1.value;
    Server.InferReplyHeaders(s, reg, detector, tracker, clip, tracked);
    var order := SortedIds(AllIds(tracked));
    assert pid in order;
    IdsHeaderRoundTripAsWritten(order);
    Client.InferNeedsThumbnails(st, ClientReply(reply, onDisk), order, pid);
  }

  /** With the corrected reader, the end-to-end promise holds for every
      accepted `/infer` whose tracked players all have a thumbnail in the
      archive, including one that tracked no player. */
  lemma InferEndToEndIntended(st: Client.State, s: Server.Session, reg: Server.Registry, detector: string,
                              tracker: string, clip: Clip, tracked: seq<Frame>, onDisk: set<int>)
    requires Client.ModelsKey in st
    requires detector in reg.detectors && tracker in reg.trackers
    requires AllIds(tracked) <= onDisk + PlayerImages(clip, tracked).Keys
    ensures var reply := Server.Infer(s, reg, detector, tracker, clip, tracked).1.value;
            var r := Client.InferIntended(st, Some(ClientReply(reply, onDisk)));
            && r.Some?
            && r.value[Client.ModelsKey] == st[Client.ModelsKey]
            && ShowsPlayers(r.value, AllIds(tracked), PlayerTimes(tracked, clip.fps))
  {
    Server.InferReplyHeaders(s, reg, detector, tracker, clip, tracked);
    IntendedReadsHeaders(st, AllIds(tracked), PlayerTimes(tracked, clip.fps), onDisk + PlayerImages(clip, tracked).Keys);
  }
}

=== FILE: rounding.dfy ===
/** Frame index to whole seconds, as `round(frame_idx / fps)` computes it:
    Python's `round` goes to the nearest integer and breaks ties to even. */
module Rounding {

  type pos = n: int | n > 0 witness 1

  /** A frame rate of num/den frames per second (30000/1001 for NTSC). */
  datatype Fps = Fps(num: pos, den: pos)

  /** `round(n / d)` on the exact quotient. */
  function RoundHalfEven(n: nat, d: pos): (q: nat)
    ensures 2 * (n - q * d) <= d && 2 * (q * d - n) <= d
    ensures 2 * (n - q * d) == d || 2 * (q * d - n) == d ==> q % 2 == 0
  {
    var f := n / d;
    var rem := n % d;
    assert n == f * d + rem;
    assert (f + 1) * d == f * d + d;
    if 2 * rem < d then f
    else if 2 * rem > d then f + 1
    else if f % 2 == 0 then f
    else f + 1
  }

  lemma BelowDivisor(k: int, d: pos)
    requires k * d < d
    ensures k < 1
  {
  }

  /** Two quotients within half a divisor of a < b cannot be ordered the
      other way. */
  lemma NearestOrdered(a: int, b: int, qa: int, qb: int, d: pos)
    requires a < b
    requires 2 * (qa * d - a) <= d && 2 * (b - qb * d) <= d
    ensures qa <= qb
  {
    assert qa * d - qb * d < d;
    assert qa * d - qb * d == (qa - qb) * d;
    BelowDivisor(qa - qb, d);
  }

  lemma RoundHalfEvenMonotone(a: nat, b: nat, d: pos)
    requires a <= b
    ensures RoundHalfEven(a, d) <= RoundHalfEven(b, d)
  {
    if a < b {
      NearestOrdered(a, b, RoundHalfEven(a, d), RoundHalfEven(b, d), d);
    }
  }

  /** The whole second a frame falls in: `frame / fps` is
      `frame * den / num` seconds, rounded to the nearest whole second with
      ties to even. */
  function Seconds(frame: nat, fps: Fps): (s: nat)
    ensures 2 * (frame * fps.den - s * fps.num) <= fps.num
    ensures 2 * (s * fps.num - frame * fps.den) <= fps.num
    ensures 2 * (frame * fps.den - s * fps.num) == fps.num || 2 * (s * fps.num - frame * fps.den) == fps.num ==>
              s % 2 == 0
  {
    RoundHalfEven(frame * fps.den, fps.num)
  }

  /** Later frames never get an earlier timestamp. */
  lemma SecondsMonotone(i: nat, j: nat, fps: Fps)
    requires i <= j
    ensures Seconds(i, fps) <= Seconds(j, fps)
  {
    assert j * fps.den == i * fps.den + (j - i) * fps.den;
    RoundHalfEvenMonotone(i * fps.den, j * fps.den, fps.num);
  }
}

=== FILE: server.dfy ===
/** The server's request handlers: one session slot filled by `/infer` and
    read by `/make_video` and `/make_focused_video`, the validation in front
    of each, and the two response headers `/infer` builds. */
module Server {
  import opened Basics
  import opened Sorting
  import opened Text
  import opened BoxStream
  import opened Video

  /** The HTTP errors the handlers raise: 400, 404 and 422, and 500 for an
      exception a handler does not catch. */
  datatype Status = BadRequest | NotFound | UnprocessableEntity | InternalError

  /** `app.state`: empty until an `/infer` succeeds, then the stored video,
      its box stream and the set of player ids. */
  datatype Session =
    | Uninitialised
    | Ready(clip: Clip, boxes: seq<Frame>, playerIds: set<int>)

  /** The stored ids are exactly the ids of the stored stream. */
  predicate Consistent(s: Session) {
    s.Ready? ==> s.playerIds == AllIds(s.boxes)
  }

  /** The names `/infer` accepts for detectors and trackers. */
  datatype Registry = Registry(detectors: set<string>, trackers: set<string>)

  /** What a successful `/infer` sends back: the two headers, the annotated
      render and the thumbnails packed into the archive. */
  datatype InferReply = InferReply(
    playerIdsHeader: string,
    playerTimesHeader: string,
    annotated: seq<map<int, Overlay>>,
    images: map<int, Crop>)

  // ---------------------------------------------------------------------
  // Headers

  function IdFields(ids: seq<int>): (fields: seq<string>)
    ensures |fields| == |ids|
    ensures forall i :: 0 <= i < |ids| ==> fields[i] == IntToString(ids[i])
  {
    seq(|ids|, i requires 0 <= i < |ids| => IntToString(ids[i]))
  }

  /** One `start-end` entry of the times header. */
  function RangeText(start: int, end: int): (h: string)
    ensures ',' !in h
    ensures start >= 0 && end >= 0 ==> Split(h, '-') == [IntToString(start), IntToString(end)]
  {
    var a, b := IntToString(start), IntToString(end);
    IntToStringAvoids(start, ',');
    IntToStringAvoids(end, ',');
    if start >= 0 && end >= 0 then
      assert forall i :: 0 <= i < |a| ==> IsDigit(a[i]);
      assert forall i :: 0 <= i < |b| ==> IsDigit(b[i]);
      SplitWithoutSep(b, '-');
      SplitAfterPiece(a, b, '-');
      a + "-" + b
    else
      a + "-" + b
  }

  function TimeFields(ids: seq<int>, t: Times): (fields: seq<string>)
    requires forall i :: 0 <= i < |ids| ==> ids[i] in t.start && ids[i] in t.end
    ensures |fields| == |ids|
    ensures forall i :: 0 <= i < |ids| ==> fields[i] == RangeText(t.start[ids[i]], t.end[ids[i]])
  {
    seq(|ids|, i requires 0 <= i < |ids| => RangeText(t.start[ids[i]], t.end[ids[i]]))
  }

  /** The `player_ids` header: the ids, comma separated, in the given
      order. It is empty exactly for no ids, and otherwise splits back into
      one numeral per id. */
  function IdsHeader(ids: seq<int>): (h: string)
    ensures h == "" <==> |ids| == 0
    ensures |ids| > 0 ==> Split(h, ',') == IdFields(ids)
  {
    var fields := IdFields(ids);
    if |ids| == 0 then ""
    else
      IdFieldsHaveNoComma(ids);
      SplitJoin(fields, ',');
      assert IntToString(ids[0]) != "" by {
        IntRoundTrip(ids[0]);
      }
      Join(fields, ',')
  }

  /** The `player_times` header: `start-end` per id, in the same order. */
  function TimesHeader(ids: seq<int>, t: Times): (h: string)
    requires forall i :: 0 <= i < |ids| ==> ids[i] in t.start && ids[i] in t.end
    ensures |ids| == 0 ==> h == ""
    ensures |ids| > 0 ==> Split(h, ',') == TimeFields(ids, t)
  {
    var fields := TimeFields(ids, t);
    if |ids| == 0 then ""
    else
      SplitJoin(fields, ',');
      Join(fields, ',')
  }

  lemma IdFieldsHaveNoComma(ids: seq<int>)
    ensures forall i :: 0 <= i < |ids| ==> ',' !in IdFields(ids)[i]
  {
    forall i | 0 <= i < |ids| {
      IntToStringAvoids(ids[i], ',');
    }
  }

  // ---------------------------------------------------------------------
  // Handlers

  /** Default parameters for every given id, as the first render uses. */
  function DefaultParamsFor(ids: set<int>): (params: map<int, PlayerParams>)
    ensures params.Keys == ids
    ensures forall id :: id in params ==> params[id] == DefaultParams
  {
    map id | id in ids :: DefaultParams
  }

  /** `/infer`: unknown detector or tracker names are refused before
      anything else runs; otherwise the tracker's stream `tracked` for the
      uploaded `clip` replaces the whole session. */
  function Infer(s: Session, reg: Registry, detector: string, tracker: string, clip: Clip, tracked: seq<Frame>)
    : (r: (Session, Result<InferReply, Status>))
    ensures detector !in reg.detectors || tracker !in reg.trackers ==> r == (s, Err(NotFound))
    ensures detector in reg.detectors && tracker in reg.trackers ==>
              r.0 == Ready(clip, tracked, AllIds(tracked)) && r.1.Ok?
    ensures Consistent(s) ==> Consistent(r.0)
  {
    if detector !in reg.detectors then (s, Err(NotFound))
    else if tracker !in reg.trackers then (s, Err(NotFound))
    else
      var t := PlayerTimes(tracked, clip.fps);
      var ids := t.start.Keys;
      var order := SortedIds(ids);
      var drawn := DrawBoxes(clip, tracked, DefaultParamsFor(ids));
      assert drawn.Some? by {
        forall i | 0 <= i < |tracked| {
          FrameIdsKnown(tracked, i);
        }
      }
      var reply := InferReply(IdsHeader(order), TimesHeader(order, t), drawn.value, PlayerImages(clip, tracked));
      (Ready(clip, tracked, ids), Ok(reply))
  }

  /** The headers of a successful `/infer` list the stream's ids in
      ascending order, each with its first and last second. */
  lemma InferReplyHeaders(s: Session, reg: Registry, detector: string, tracker: string, clip: Clip, tracked: seq<Frame>)
    requires detector in reg.detectors && tracker in reg.trackers
    ensures var reply := Infer(s, reg, detector, tracker, clip, tracked).1.value;
            var t := PlayerTimes(tracked, clip.fps);
            var order := SortedIds(AllIds(tracked));
            && reply.playerIdsHeader == IdsHeader(order)
            && reply.playerTimesHeader == TimesHeader(order, t)
            && reply.images == PlayerImages(clip, tracked)
  {
  }

  /** The render of a successful `/infer` draws every box of every shared
      frame under its `id<N>` caption. */
  lemma InferReplyRender(s: Session, reg: Registry, detector: string, tracker: string, clip: Clip, tracked: seq<Frame>)
    requires detector in reg.detectors && tracker in reg.trackers
    ensures var reply := Infer(s, reg, detector, tracker, clip, tracked).1.value;
            && |reply.annotated| == Min(clip.frameCount, |tracked|)
            && (forall i :: 0 <= i < |reply.annotated| ==> reply.annotated[i].Keys == tracked[i].Keys)
            && (forall i, id :: 0 <= i < |reply.annotated| && id in reply.annotated[i] ==>
                  reply.annotated[i][id] == Overlay(tracked[i][id], "id" + IntToString(id)))
  {
    var params := DefaultParamsFor(AllIds(tracked));
    assert Infer(s, reg, detector, tracker, clip, tracked).1.value.annotated == DrawBoxes(clip, tracked, params).value;
    DrawDefaults(clip, tracked, params);
  }

  /** `/make_video`: needs a session and parameters for exactly its ids. */
  function MakeVideo(s: Session, params: map<int, PlayerParams>): (r: Result<seq<map<int, Overlay>>, Status>)
    ensures s.Uninitialised? ==> r == Err(BadRequest)
    ensures s.Ready? && params.Keys != s.playerIds ==> r == Err(UnprocessableEntity)
    ensures r.Ok? ==> s.Ready? && DrawBoxes(s.clip, s.boxes, params) == Some(r.value)
    ensures Consistent(s) && s.Ready? && params.Keys == s.playerIds ==> r.Ok?
  {
    if s.Uninitialised? then Err(BadRequest)
    else if params.Keys != s.playerIds then Err(UnprocessableEntity)
    else
      assert Consistent(s) ==> DrawBoxes(s.clip, s.boxes, params).Some? by {
        if Consistent(s) {
          forall i | 0 <= i < |s.boxes| {
            FrameIdsKnown(s.boxes, i);
          }
        }
      }
      match DrawBoxes(s.clip, s.boxes, params)
      case Some(frames) => Ok(frames)
      case None => Err(InternalError)
  }

  /** `/make_focused_video`: needs a session and one of its ids, and
      returns `crop_to_player` as written. */
  function MakeFocusedVideo(s: Session, pid: int): (r: Result<seq<Crop>, Status>)
    ensures s.Uninitialised? ==> r == Err(BadRequest)
    ensures s.Ready? && pid !in s.playerIds ==> r == Err(NotFound)
    ensures r.Ok? ==> s.Ready? && CropToPlayerAsWritten(s.clip, s.boxes, pid) == Some(r.value)
    ensures Consistent(s) && s.Ready? && pid in s.playerIds ==> r.Ok?
  {
    if s.Uninitialised? then Err(BadRequest)
    else if pid !in s.playerIds then Err(NotFound)
    else
      match CropToPlayerAsWritten(s.clip, s.boxes, pid)
      case Some(crops) => Ok(crops)
      case None => Err(InternalError)
  }

  /** The same handler over the corrected crop: the same checks, and the
      crops are cut from the frames that show the player. */
  function MakeFocusedVideoIntended(s: Session, pid: int): (r: Result<seq<Crop>, Status>)
    ensures s.Uninitialised? ==> r == Err(BadRequest)
    ensures s.Ready? && pid !in s.playerIds ==> r == Err(NotFound)
    ensures r.Ok? ==> s.Ready? && CropToPlayer(s.clip, s.boxes, pid) == Some(r.value)
    ensures Consistent(s) && s.Ready? && pid in s.playerIds ==> r.Ok?
  {
    if s.Uninitialised? then Err(BadRequest)
    else if pid !in s.playerIds then Err(NotFound)
    else
      match CropToPlayer(s.clip, s.boxes, pid)
      case Some(crops) => Ok(crops)
      case None => Err(InternalError)
  }

  // ---------------------------------------------------------------------
  // Request sequences

  datatype Request =
    | InferRequest(detector: string, tracker: string, clip: Clip, tracked: seq<Frame>)
    | MakeVideoRequest(params: map<int, PlayerParams>)
    | MakeFocusedVideoRequest(pid: int)

  /** The session after one request; only `/infer` writes it. */
  function Step(s: Session, reg: Registry, req: Request): Session {
    match req
    case InferRequest(d, t, clip, tracked) => Infer(s, reg, d, t, clip, tracked).0
    case _ => s
  }

  function Run(s: Session, reg: Registry, reqs: seq<Request>): Session
    decreases |reqs|
  {
    if |reqs| == 0 then s else Run(Step(s, reg, reqs[0]), reg, reqs[1..])
  }

  /** Whether `req` is an `/infer` the registry accepts. */
  predicate Accepted(reg: Registry, req: Request) {
    req.InferRequest? && req.detector in reg.detectors && req.tracker in reg.trackers
  }

  /** Every session reached from the empty one is consistent, so a
      validated `/make_video` or `/make_focused_video` never fails. */
  lemma {:induction false} RunKeepsConsistent(s: Session, reg: Registry, reqs: seq<Request>)
    requires Consistent(s)
    ensures Consistent(Run(s, reg, reqs))
    decreases |reqs|
  {
    if |reqs| > 0 {
      RunKeepsConsistent(Step(s, reg, reqs[0]), reg, reqs[1..]);
    }
  }

  /** The session after a run is the one the last accepted `/infer` built,
      whatever came before it: sessions are replaced, never merged. */
  lemma {:induction false} RunEndsWithLastInfer(s: Session, reg: Registry, reqs: seq<Request>, k: nat)
    requires k < |reqs| && Accepted(reg, reqs[k])
    requires forall j :: k < j < |reqs| ==> !Accepted(reg, reqs[j])
    ensures Run(s, reg, reqs) == Ready(reqs[k].clip, reqs[k].tracked, AllIds(reqs[k].tracked))
    decreases |reqs|
  {
    if k == 0 {
      RunWithoutInfer(Step(s, reg, reqs[0]), reg, reqs[1..]);
    } else {
      RunEndsWithLastInfer(Step(s, reg, reqs[0]), reg, reqs[1..], k - 1);
    }
  }

  /** Requests that are not accepted `/infer`s leave the session alone. */
  lemma {:induction false} RunWithoutInfer(s: Session, reg: Registry, reqs: seq<Request>)
    requires forall j :: 0 <= j < |reqs| ==> !Accepted(reg, reqs[j])
    ensures Run(s, reg, reqs) == s
    decreases |reqs|
  {
    if |reqs| > 0 {
      assert !Accepted(reg, reqs[0]);
      RunWithoutInfer(s, reg, reqs[1..]);
    }
  }
}

=== FILE: sorting.dfy ===
/** `sorted` on a set of integers: the server lists player ids in
    ascending order. */
module Sorting {

  function SetMin(s: set<int>): (m: int)
    requires s != {}
    ensures m in s && forall x :: x in s ==> m <= x
  {
    MinExists(s);
    var m :| m in s && forall x :: x in s ==> m <= x;
    m
  }

  lemma HasElement(s: set<int>)
    requires s != {}
    ensures exists y :: y in s
  {
    if forall y :: y !in s {
      assert false;
    }
  }

  lemma MinExists(s: set<int>)
    requires s != {}
    ensures exists m :: m in s && forall x :: x in s ==> m <= x
    decreases |s|
  {
    HasElement(s);
    var y :| y in s;
    var rest := s - {y};
    assert forall x :: x in s ==> x == y || x in rest;
    if rest == {} {
      assert y in s && forall x :: x in s ==> y <= x;
    } else {
      MinExists(rest);
      var m :| m in rest && forall x :: x in rest ==> m <= x;
      if y < m {
        assert y in s && forall x :: x in s ==> y <= x;
      } else {
        assert m in s && forall x :: x in s ==> m <= x;
      }
    }
  }

  /** `sorted(ids)`. */
  function SortedIds(ids: set<int>): (r: seq<int>)
    ensures forall i, j :: 0 <= i < j < |r| ==> r[i] < r[j]
    ensures forall x :: x in r <==> x in ids
    ensures |r| == |ids|
    decreases |ids|
  {
    if ids == {} then []
    else
      var m := SetMin(ids);
      [m] + SortedIds(ids - {m})
  }
}

=== FILE: text.dfy ===
/** Decimal rendering and parsing of integers, and comma/dash separated
    fields: the pieces of Python's `str`, `int`, `str.join` and `str.split`
    that the header exchange between server and client relies on. */
module Text {
  import opened Basics

  predicate IsDigit(c: char) {
    '0' <= c <= '9'
  }

  /** A non-empty run of ASCII digits. */
  predicate IsNumeral(s: string) {
    |s| > 0 && forall i :: 0 <= i < |s| ==> IsDigit(s[i])
  }

  function DigitChar(d: nat): (c: char)
    requires d < 10
    ensures IsDigit(c) && c as int - '0' as int == d
  {
    ('0' as int + d) as char
  }

  function DigitValue(c: char): nat
    requires IsDigit(c)
  {
    c as int - '0' as int
  }

  /** `str(n)` for a non-negative integer. */
  function NatToString(n: nat): (s: string)
    ensures IsNumeral(s)
    decreases n
  {
    if n < 10 then [DigitChar(n)] else NatToString(n / 10) + [DigitChar(n % 10)]
  }

  /** The value of a numeral, most significant digit first. */
  function ParseNat(s: string): nat
    requires IsNumeral(s)
    decreases |s|
  {
    if |s| == 1 then DigitValue(s[0])
    else 10 * ParseNat(s[..|s| - 1]) + DigitValue(s[|s| - 1])
  }

  /** `str(n)`: a minus sign in front of negative numbers. */
  function IntToString(n: int): (s: string)
    ensures n >= 0 ==> IsNumeral(s)
    ensures n < 0 ==> |s| > 1 && s[0] == '-' && IsNumeral(s[1..])
  {
    if n < 0 then "-" + NatToString(-n) else NatToString(n)
  }

  /** `int(s)` on an optional sign followed by digits; anything else raises,
      which is `None` here. */
  function ParseInt(s: string): (r: Option<int>)
    ensures r.Some? <==> IsNumeral(s) || (|s| > 1 && (s[0] == '-' || s[0] == '+') && IsNumeral(s[1..]))
  {
    if IsNumeral(s) then Some(ParseNat(s))
    else if |s| > 1 && s[0] == '-' && IsNumeral(s[1..]) then Some(-(ParseNat(s[1..]) as int))
    else if |s| > 1 && s[0] == '+' && IsNumeral(s[1..]) then Some(ParseNat(s[1..]))
    else None
  }

  lemma {:induction false} NatRoundTrip(n: nat)
    ensures ParseNat(NatToString(n)) == n
    decreases n
  {
    if n >= 10 {
      NatRoundTrip(n / 10);
      var s := NatToString(n);
      assert s[..|s| - 1] == NatToString(n / 10);
    }
  }

  /** `int(str(n)) == n` for every integer. */
  lemma IntRoundTrip(n: int)
    ensures ParseInt(IntToString(n)) == Some(n)
  {
    if n < 0 {
      NatRoundTrip(-n);
      var s := IntToString(n);
      assert s[1..] == NatToString(-n);
    } else {
      NatRoundTrip(n);
    }
  }

  /** Distinct integers render as distinct strings. */
  lemma IntToStringInjective(a: int, b: int)
    ensures IntToString(a) == IntToString(b) ==> a == b
  {
    IntRoundTrip(a);
    IntRoundTrip(b);
  }

  /** A rendered integer holds no separator character other than a leading minus. */
  lemma IntToStringChars(n: int, i: int)
    requires 0 <= i < |IntToString(n)|
    ensures IsDigit(IntToString(n)[i]) || (i == 0 && n < 0 && IntToString(n)[i] == '-')
  {
    if n < 0 && i > 0 {
      assert IntToString(n)[i] == IntToString(n)[1..][i - 1];
    }
  }

  /** No character other than a digit or a minus occurs in a rendered
      integer, so none can act as a separator inside one. */
  lemma IntToStringAvoids(n: int, c: char)
    requires !IsDigit(c) && c != '-'
    ensures c !in IntToString(n)
  {
    forall i | 0 <= i < |IntToString(n)|
      ensures IntToString(n)[i] != c
    {
      IntToStringChars(n, i);
    }
  }

  /** `sep.join(parts)`. */
  function Join(parts: seq<string>, sep: char): (s: string)
    ensures |parts| == 0 ==> s == ""
    ensures |parts| > 0 ==> parts[0] <= s
    ensures |parts| > 1 ==> |s| > |parts[0]| && s[|parts[0]|] == sep
    decreases |parts|
  {
    if |parts| == 0 then ""
    else if |parts| == 1 then parts[0]
    else parts[0] + [sep] + Join(parts[1..], sep)
  }

  /** `s.split(sep)`: the maximal separator-free pieces; the empty string
      splits into one empty piece. */
  function Split(s: string, sep: char): (parts: seq<string>)
    ensures |parts| > 0
    ensures forall i :: 0 <= i < |parts| ==> sep !in parts[i]
    decreases |s|
  {
    if |s| == 0 then [""]
    else
      var rest := Split(s[1..], sep);
      if s[0] == sep then [""] + rest else [[s[0]] + rest[0]] + rest[1..]
  }

  lemma {:induction false} SplitWithoutSep(a: string, sep: char)
    requires sep !in a
    ensures Split(a, sep) == [a]
    decreases |a|
  {
    if |a| > 0 {
      SplitWithoutSep(a[1..], sep);
      assert [a[0]] + a[1..] == a;
    }
  }

  lemma {:induction false} SplitAfterPiece(a: string, rest: string, sep: char)
    requires sep !in a
    ensures Split(a + [sep] + rest, sep) == [a] + Split(rest, sep)
    decreases |a|
  {
    var s := a + [sep] + rest;
    if |a| == 0 {
      assert s[1..] == rest;
    } else {
      assert s[1..] == a[1..] + [sep] + rest;
      SplitAfterPiece(a[1..], rest, sep);
      assert [a[0]] + a[1..] == a;
    }
  }

  /** Splitting a join of separator-free pieces gives the pieces back. */
  lemma {:induction false} SplitJoin(parts: seq<string>, sep: char)
    requires |parts| > 0
    requires forall i :: 0 <= i < |parts| ==> sep !in parts[i]
    ensures Split(Join(parts, sep), sep) == parts
    decreases |parts|
  {
    if |parts| == 1 {
      SplitWithoutSep(parts[0], sep);
    } else {
      SplitJoin(parts[1..], sep);
      SplitAfterPiece(parts[0], Join(parts[1..], sep), sep);
      assert [parts[0]] + parts[1..] == parts;
    }
  }

  /** Joining the pieces of a split gives the string back. */
  lemma {:induction false} JoinSplit(s: string, sep: char)
    ensures Join(Split(s, sep), sep) == s
    decreases |s|
  {
    if |s| > 0 {
      var rest := Split(s[1..], sep);
      JoinSplit(s[1..], sep);
      if |rest| > 1 {
        assert Join(rest, sep) == rest[0] + [sep] + Join(rest[1..], sep);
      }
      if s[0] == sep {
        assert Join([""] + rest, sep) == [sep] + Join(rest, sep) by {
          assert ([""] + rest)[1..] == rest;
        }
      } else {
        var parts := [[s[0]] + rest[0]] + rest[1..];
        if |rest| > 1 {
          assert parts[1..] == rest[1..];
        }
      }
      assert [s[0]] + s[1..] == s;
    }
  }
}

=== FILE: video.dfy ===
/** The box-stream algorithms of the server's video module: presence times,
    the annotated render, the focused crop and the per-player thumbnails.
    Pixels are out of the picture: a render is the set of overlays drawn on
    each frame, a crop is which frame is cut and where. */
module Video {
  import opened Basics
  import opened Text
  import opened Geometry
  import opened Rounding
  import opened BoxStream

  /** Per-player rendering choices; the defaults draw every player under
      its synthesised label. */
  datatype PlayerParams = PlayerParams(customLabel: string, draw: bool)

  const DefaultParams := PlayerParams("", true)

  /** The decoded source video: where it was stored, how many frames it
      has, their size and the frame rate. */
  datatype Clip = Clip(path: string, frameCount: nat, width: nat, height: nat, fps: Fps)

  // ---------------------------------------------------------------------
  // get_player_times

  /** First-seen and last-seen second of every player. */
  datatype Times = Times(start: map<int, nat>, end: map<int, nat>)

  /** `get_player_times`: frame by frame, a sighting fills `start` only for
      ids it does not hold yet and always overwrites `end`. */
  function PlayerTimes(frames: seq<Frame>, fps: Fps): (t: Times)
    ensures t.start.Keys == AllIds(frames) && t.end.Keys == AllIds(frames)
    ensures forall id :: id in t.start ==>
              Appears(frames, id) && t.start[id] == Seconds(FirstSeen(frames, id), fps)
    ensures forall id :: id in t.end ==>
              Appears(frames, id) && t.end[id] == Seconds(LastSeen(frames, id), fps)
    decreases |frames|
  {
    if |frames| == 0 then Times(map[], map[])
    else
      var last := |frames| - 1;
      var prefix := frames[..last];
      var prev := PlayerTimes(prefix, fps);
      var upd := map id | id in frames[last] :: Seconds(last, fps);
      var t := Times(upd + prev.start, prev.end + upd);
      SightingsAfterFrame(frames);
      t
  }

  /** Nobody leaves before arriving. */
  lemma StartNotAfterEnd(frames: seq<Frame>, fps: Fps, id: int)
    requires id in PlayerTimes(frames, fps).start
    ensures id in PlayerTimes(frames, fps).end
    ensures PlayerTimes(frames, fps).start[id] <= PlayerTimes(frames, fps).end[id]
  {
    SecondsMonotone(FirstSeen(frames, id), LastSeen(frames, id), fps);
  }

  // ---------------------------------------------------------------------
  // draw_bboxes

  /** A rectangle and its caption drawn over one frame. */
  datatype Overlay = Overlay(box: Rect, caption: string)

  /** The caption of a drawn box: the custom label, or `id<N>` when empty. */
  function Label(id: int, p: PlayerParams): (caption: string)
    ensures |caption| > 0
    ensures |p.customLabel| > 0 ==> caption == p.customLabel
    ensures |p.customLabel| == 0 ==> |caption| > 2 && caption[..2] == "id" && ParseInt(caption[2..]) == Some(id)
  {
    if |p.customLabel| > 0 then p.customLabel
    else
      IntRoundTrip(id);
      assert ("id" + IntToString(id))[2..] == IntToString(id);
      "id" + IntToString(id)
  }

  /** The boxes drawn on one frame, by player. */
  function FrameOverlays(f: Frame, params: map<int, PlayerParams>): (r: map<int, Overlay>)
    requires f.Keys <= params.Keys
    ensures forall id :: id in f && params[id].draw ==> id in r
    ensures forall id :: id in r ==> id in f && params[id].draw && r[id].box == f[id] && |r[id].caption| > 0
  {
    map id | id in f && params[id].draw :: Overlay(f[id], Label(id, params[id]))
  }

  /** `draw_bboxes`: walk video frames and box frames in step; a frame's
      boxes whose player is switched on are drawn with that player's
      caption. An id missing from `params` raises (`None`). */
  function DrawBoxes(clip: Clip, frames: seq<Frame>, params: map<int, PlayerParams>)
    : (r: Option<seq<map<int, Overlay>>>)
    ensures r.Some? <==>
              forall i, id :: 0 <= i < Min(clip.frameCount, |frames|) && id in frames[i] ==> id in params
    ensures r.Some? ==> |r.value| == Min(clip.frameCount, |frames|)
    ensures r.Some? ==> forall i, id :: 0 <= i < |r.value| ==>
              && (id in r.value[i] <==> id in frames[i] && params[id].draw)
              && (id in r.value[i] ==> r.value[i][id] == Overlay(frames[i][id], Label(id, params[id])))
  {
    var n := Min(clip.frameCount, |frames|);
    if forall i, id :: 0 <= i < n && id in frames[i] ==> id in params then
      Some(seq(n, i requires 0 <= i < n => FrameOverlays(frames[i], params)))
    else
      None
  }

  /** With default parameters for every id of the stream, every box of
      every shared frame is drawn under its `id<N>` caption. */
  lemma DrawDefaults(clip: Clip, frames: seq<Frame>, params: map<int, PlayerParams>)
    requires params.Keys == AllIds(frames)
    requires forall id :: id in params ==> params[id] == DefaultParams
    ensures DrawBoxes(clip, frames, params).Some?
    ensures var out := DrawBoxes(clip, frames, params).value;
            && |out| == Min(clip.frameCount, |frames|)
            && (forall i :: 0 <= i < |out| ==> out[i].Keys == frames[i].Keys)
            && (forall i, id :: 0 <= i < |out| && id in out[i] ==>
                  out[i][id] == Overlay(frames[i][id], "id" + IntToString(id)))
  {
    var n := Min(clip.frameCount, |frames|);
    forall i, id | 0 <= i < n && id in frames[i]
      ensures id in params
    {
      FrameIdsKnown(frames, i);
    }
    var out := DrawBoxes(clip, frames, params).value;
    forall i, id | 0 <= i < |out| && id in frames[i]
      ensures params[id] == DefaultParams
    {
      FrameIdsKnown(frames, i);
    }
  }

  /** Switching every player off leaves every frame bare. */
  lemma NothingDrawnWhenAllHidden(clip: Clip, frames: seq<Frame>, params: map<int, PlayerParams>)
    requires forall id :: id in params ==> !params[id].draw
    requires DrawBoxes(clip, frames, params).Some?
    ensures forall i :: 0 <= i < |DrawBoxes(clip, frames, params).value| ==>
              DrawBoxes(clip, frames, params).value[i] == map[]
  {
    var out := DrawBoxes(clip, frames, params).value;
    forall i | 0 <= i < |out|
      ensures out[i] == map[]
    {
      assert forall id :: id !in out[i];
    }
  }

  // ---------------------------------------------------------------------
  // crop_to_player

  /** Cut `window` out of video frame number `frame`. */
  datatype Crop = Crop(frame: nat, window: Rect)

  function MaxOf(xs: seq<int>): (m: int)
    requires |xs| > 0
    ensures forall j :: 0 <= j < |xs| ==> xs[j] <= m
    ensures exists j :: 0 <= j < |xs| && xs[j] == m
    decreases |xs|
  {
    if |xs| == 1 then xs[0]
    else
      var rest := MaxOf(xs[1..]);
      if xs[0] >= rest then xs[0] else rest
  }

  function Widths(boxes: seq<Rect>): (ws: seq<int>)
    ensures |ws| == |boxes| && forall j :: 0 <= j < |boxes| ==> ws[j] == boxes[j].Width()
  {
    seq(|boxes|, j requires 0 <= j < |boxes| => boxes[j].Width())
  }

  function Heights(boxes: seq<Rect>): (hs: seq<int>)
    ensures |hs| == |boxes| && forall j :: 0 <= j < |boxes| ==> hs[j] == boxes[j].Height()
  {
    seq(|boxes|, j requires 0 <= j < |boxes| => boxes[j].Height())
  }

  lemma BoxesBounded(frames: seq<Frame>, pid: int, k: nat)
    requires k < |frames| && pid in frames[k]
    ensures |PlayerBoxes(frames, pid)| > 0
    ensures frames[k][pid].Width() <= MaxOf(Widths(PlayerBoxes(frames, pid)))
    ensures frames[k][pid].Height() <= MaxOf(Heights(PlayerBoxes(frames, pid)))
  {
    var occ := Occurrences(frames, pid);
    var j :| 0 <= j < |occ| && occ[j] == k;
    assert Widths(PlayerBoxes(frames, pid))[j] == frames[k][pid].Width();
    assert Heights(PlayerBoxes(frames, pid))[j] == frames[k][pid].Height();
  }

  lemma BoxesAttain(frames: seq<Frame>, pid: int)
    requires |PlayerBoxes(frames, pid)| > 0
    ensures exists k :: 0 <= k < |frames| && pid in frames[k] &&
              frames[k][pid].Width() == MaxOf(Widths(PlayerBoxes(frames, pid)))
    ensures exists k :: 0 <= k < |frames| && pid in frames[k] &&
              frames[k][pid].Height() == MaxOf(Heights(PlayerBoxes(frames, pid)))
  {
    var occ := Occurrences(frames, pid);
    var ws := Widths(PlayerBoxes(frames, pid));
    var hs := Heights(PlayerBoxes(frames, pid));
    var jw :| 0 <= jw < |ws| && ws[jw] == MaxOf(ws);
    assert pid in frames[occ[jw]] && frames[occ[jw]][pid].Width() == MaxOf(ws);
    var jh :| 0 <= jh < |hs| && hs[jh] == MaxOf(hs);
    assert pid in frames[occ[jh]] && frames[occ[jh]][pid].Height() == MaxOf(hs);
  }

  /** The size of every crop of `pid`: its widest and its tallest box. */
  function FocusSize(frames: seq<Frame>, pid: int): (size: (int, int))
    requires Appears(frames, pid)
    ensures forall k :: 0 <= k < |frames| && pid in frames[k] ==>
              frames[k][pid].Width() <= size.0 && frames[k][pid].Height() <= size.1
    ensures exists k :: 0 <= k < |frames| && pid in frames[k] && frames[k][pid].Width() == size.0
    ensures exists k :: 0 <= k < |frames| && pid in frames[k] && frames[k][pid].Height() == size.1
  {
    var k0 := FirstSeen(frames, pid);
    BoxesBounded(frames, pid, k0);
    var boxes := PlayerBoxes(frames, pid);
    forall k | 0 <= k < |frames| && pid in frames[k] {
      BoxesBounded(frames, pid, k);
    }
    BoxesAttain(frames, pid);
    (MaxOf(Widths(boxes)), MaxOf(Heights(boxes)))
  }

  /** The crop of appearance `k` of `pid`: the player's widest-by-tallest
      box centred on its box in frame `k`, moved inside the frame. */
  function FocusCrop(clip: Clip, frames: seq<Frame>, pid: int, k: nat): (c: Crop)
    requires k < |frames| && pid in frames[k]
    ensures Appears(frames, pid)
    ensures var (w, h) := FocusSize(frames, pid);
            && c.frame == k
            && c.window.Width() == w && c.window.Height() == h
            && (w <= clip.width && h <= clip.height ==> c.window.Within(clip.width, clip.height))
            && (w <= clip.width && h <= clip.height && frames[k][pid].Within(clip.width, clip.height) ==>
                  c.window.Contains(frames[k][pid]))
  {
    assert Appears(frames, pid);
    var size := FocusSize(frames, pid);
    Crop(k, PadToSize(frames[k][pid], size.0, size.1, clip.width, clip.height))
  }

  /** `crop_to_player` exactly as written: the window built from the
      player's j-th appearance is cut from the j-th frame of the video,
      whichever frames the player actually appears in. `None` when the
      player never appears (`max` of nothing raises). */
  function CropToPlayerAsWritten(clip: Clip, frames: seq<Frame>, pid: int): (r: Option<seq<Crop>>)
    ensures r.None? <==> !Appears(frames, pid)
    ensures r.Some? ==> |r.value| == Min(clip.frameCount, |Occurrences(frames, pid)|)
    ensures r.Some? ==> forall j :: 0 <= j < |r.value| ==>
              r.value[j] == Crop(j, FocusCrop(clip, frames, pid, Occurrences(frames, pid)[j]).window)
  {
    OccurrencesEmpty(frames, pid);
    if !Appears(frames, pid) then None
    else
      var occ := Occurrences(frames, pid);
      var n := Min(clip.frameCount, |occ|);
      Some(seq(n, j requires 0 <= j < n => Crop(j, FocusCrop(clip, frames, pid, occ[j]).window)))
  }

  /** Two frames, the player only in the second: the one crop as written
      is cut from the first frame, where the player is not. */
  lemma CropAsWrittenMissesPlayer()
    ensures var frames := [map[], map[7 := Rect(0, 0, 4, 4)]];
            var r := CropToPlayerAsWritten(Clip("v", 2, 10, 10, Fps(1, 1)), frames, 7);
            r.Some? && |r.value| == 1 && r.value[0].frame == 0 && 7 !in frames[r.value[0].frame]
  {
    var frames: seq<Frame> := [map[], map[7 := Rect(0, 0, 4, 4)]];
    assert 7 in frames[1];
    assert Occurrences(frames[..1], 7) == [] by {
      assert 7 !in frames[..1][0];
    }
    assert Occurrences(frames, 7) == [1] by {
      assert frames[..|frames| - 1] == frames[..1];
    }
  }

  /** The crops of the listed appearances, in the listed order. */
  function CropsAt(clip: Clip, frames: seq<Frame>, pid: int, ks: seq<nat>): (r: seq<Crop>)
    requires forall j :: 0 <= j < |ks| ==> ks[j] < |frames| && pid in frames[ks[j]]
    ensures |r| == |ks|
    ensures forall j :: 0 <= j < |ks| ==> r[j] == FocusCrop(clip, frames, pid, ks[j])
  {
    seq(|ks|, j requires 0 <= j < |ks| => FocusCrop(clip, frames, pid, ks[j]))
  }

  /** The focused crop with each window cut from the frame it was built
      from, over the frames the video and the stream share. */
  function CropToPlayer(clip: Clip, frames: seq<Frame>, pid: int): (r: Option<seq<Crop>>)
    ensures r.None? <==> !Appears(frames, pid)
    ensures r.Some? ==>
              r.value == CropsAt(clip, frames, pid, Occurrences(frames[..Min(clip.frameCount, |frames|)], pid))
  {
    if !Appears(frames, pid) then None
    else
      var n := Min(clip.frameCount, |frames|);
      var occ := Occurrences(frames[..n], pid);
      assert forall j :: 0 <= j < |occ| ==> frames[..n][occ[j]] == frames[occ[j]];
      Some(CropsAt(clip, frames, pid, occ))
  }

  /** Every crop is the focus window of a shared frame showing the
      player. */
  lemma CropsAreFocusCrops(clip: Clip, frames: seq<Frame>, pid: int)
    requires Appears(frames, pid)
    ensures var r := CropToPlayer(clip, frames, pid).value;
            forall j :: 0 <= j < |r| ==>
              && r[j].frame < Min(clip.frameCount, |frames|) && pid in frames[r[j].frame]
              && r[j] == FocusCrop(clip, frames, pid, r[j].frame)
  {
    var n := Min(clip.frameCount, |frames|);
    var r := CropToPlayer(clip, frames, pid).value;
    var occ := Occurrences(frames[..n], pid);
    forall j | 0 <= j < |r|
      ensures r[j].frame < n && pid in frames[r[j].frame]
    {
      assert frames[..n][occ[j]] == frames[occ[j]];
    }
  }

  /** Every crop is cut from a shared frame that shows the player. */
  lemma CropFramesShowPlayer(clip: Clip, frames: seq<Frame>, pid: int)
    requires Appears(frames, pid)
    ensures var r := CropToPlayer(clip, frames, pid).value;
            forall j :: 0 <= j < |r| ==> r[j].frame < Min(clip.frameCount, |frames|) && pid in frames[r[j].frame]
  {
    CropsAreFocusCrops(clip, frames, pid);
  }

  /** Crops follow the video's frame order, each frame at most once. */
  lemma CropFramesInOrder(clip: Clip, frames: seq<Frame>, pid: int)
    requires Appears(frames, pid)
    ensures var r := CropToPlayer(clip, frames, pid).value;
            forall j, j' :: 0 <= j < j' < |r| ==> r[j].frame < r[j'].frame
  {
    var n := Min(clip.frameCount, |frames|);
    var r := CropToPlayer(clip, frames, pid).value;
    var occ := Occurrences(frames[..n], pid);
    forall j | 0 <= j < |r|
      ensures r[j].frame == occ[j]
    {
    }
  }

  /** The crops are cut from the player's appearances, in order. */
  lemma CropFramesAreOccurrences(clip: Clip, frames: seq<Frame>, pid: int)
    requires Appears(frames, pid)
    ensures var r := CropToPlayer(clip, frames, pid).value;
            var occ := Occurrences(frames[..Min(clip.frameCount, |frames|)], pid);
            |r| == |occ| && forall j :: 0 <= j < |r| ==> r[j].frame == occ[j]
  {
  }

  /** Every shared frame that shows the player is cut. */
  lemma CropFramesCoverAppearances(clip: Clip, frames: seq<Frame>, pid: int)
    requires Appears(frames, pid)
    ensures var r := CropToPlayer(clip, frames, pid).value;
            forall k :: 0 <= k < Min(clip.frameCount, |frames|) && pid in frames[k] ==>
                  exists j :: 0 <= j < |r| && r[j].frame == k
  {
    var n := Min(clip.frameCount, |frames|);
    var r := CropToPlayer(clip, frames, pid).value;
    var occ := Occurrences(frames[..n], pid);
    CropFramesAreOccurrences(clip, frames, pid);
    forall k | 0 <= k < n && pid in frames[k]
      ensures exists j :: 0 <= j < |r| && r[j].frame == k
    {
      assert frames[..n][k] == frames[k];
      var j :| 0 <= j < |occ| && occ[j] == k;
      assert r[j].frame == k;
    }
  }

  /** Every crop window has the player's widest-by-tallest size; when that
      size fits the video it lies inside the frame and covers the
      player's box. */
  lemma CropWindowsFit(clip: Clip, frames: seq<Frame>, pid: int)
    requires Appears(frames, pid)
    ensures var r := CropToPlayer(clip, frames, pid).value;
            var (w, h) := FocusSize(frames, pid);
            && (forall j :: 0 <= j < |r| ==> r[j].frame < |frames| && pid in frames[r[j].frame])
            && (forall j :: 0 <= j < |r| ==> r[j].window.Width() == w && r[j].window.Height() == h)
            && (w <= clip.width && h <= clip.height ==> forall j :: 0 <= j < |r| ==>
                  r[j].window.Within(clip.width, clip.height))
            && (w <= clip.width && h <= clip.height ==> forall j :: 0 <= j < |r| ==>
                  frames[r[j].frame][pid].Within(clip.width, clip.height) ==>
                  r[j].window.Contains(frames[r[j].frame][pid]))
  {
    var r := CropToPlayer(clip, frames, pid).value;
    var (w, h) := FocusSize(frames, pid);
    CropsAreFocusCrops(clip, frames, pid);
    forall j | 0 <= j < |r|
      ensures r[j].frame < |frames| && pid in frames[r[j].frame]
      ensures r[j].window.Width() == w && r[j].window.Height() == h
      ensures w <= clip.width && h <= clip.height ==> r[j].window.Within(clip.width, clip.height)
      ensures w <= clip.width && h <= clip.height && frames[r[j].frame][pid].Within(clip.width, clip.height) ==>
                r[j].window.Contains(frames[r[j].frame][pid])
    {
      assert r[j] == FocusCrop(clip, frames, pid, r[j].frame);
    }
  }

  /** Where the player is in every frame, writing and intent agree. */
  lemma CropAsWrittenRightWhenPresentThroughout(clip: Clip, frames: seq<Frame>, pid: int)
    requires 0 < |frames| <= clip.frameCount
    requires forall k :: 0 <= k < |frames| ==> pid in frames[k]
    ensures CropToPlayerAsWritten(clip, frames, pid) == CropToPlayer(clip, frames, pid)
  {
    assert pid in frames[0];
    assert frames[..|frames|] == frames;
    OccurrencesAll(frames, pid);
    var a := CropToPlayerAsWritten(clip, frames, pid).value;
    var b := CropToPlayer(clip, frames, pid).value;
    assert |a| == |b|;
    forall j | 0 <= j < |a|
      ensures a[j] == b[j]
    {
      assert Min(clip.frameCount, |frames|) == |frames|;
      assert b[j] == FocusCrop(clip, frames, pid, j);
    }
    assert a == b;
  }

  /** A player present in every frame occurs at every index. */
  lemma {:induction false} OccurrencesAll(frames: seq<Frame>, pid: int)
    requires forall k :: 0 <= k < |frames| ==> pid in frames[k]
    ensures |Occurrences(frames, pid)| == |frames|
    ensures forall j :: 0 <= j < |frames| ==> Occurrences(frames, pid)[j] == j
    decreases |frames|
  {
    if |frames| > 0 {
      OccurrencesAll(frames[..|frames| - 1], pid);
    }
  }

  // ---------------------------------------------------------------------
  // save_player_images

  /** First-seen-wins thumbnails over a stream: each id's box from the
      first frame that tracks it. */
  function FirstCrops(frames: seq<Frame>): (m: map<int, Crop>)
    ensures m.Keys == AllIds(frames)
    ensures forall id :: id in m ==>
              Appears(frames, id) &&
              m[id] == Crop(FirstSeen(frames, id), frames[FirstSeen(frames, id)][id])
    decreases |frames|
  {
    if |frames| == 0 then map[]
    else
      var last := |frames| - 1;
      var prev := FirstCrops(frames[..last]);
      prev + map id | id in frames[last] && id !in prev :: Crop(last, frames[last][id])
  }

  /** `save_player_images`: over the frames the video and the stream share,
      the first sighting of each player is saved, later ones skipped. */
  function PlayerImages(clip: Clip, frames: seq<Frame>): (m: map<int, Crop>)
    ensures m.Keys == AllIds(frames[..Min(clip.frameCount, |frames|)])
    ensures forall id :: id in m ==>
              Appears(frames, id) &&
              m[id] == Crop(FirstSeen(frames, id), frames[FirstSeen(frames, id)][id])
  {
    var n := Min(clip.frameCount, |frames|);
    var m := FirstCrops(frames[..n]);
    assert forall id :: id in m ==>
             Appears(frames, id) &&
             m[id] == Crop(FirstSeen(frames, id), frames[FirstSeen(frames, id)][id]) by {
      forall id | id in m
        ensures Appears(frames, id) &&
                m[id] == Crop(FirstSeen(frames, id), frames[FirstSeen(frames, id)][id])
      {
        FirstSeenOfPrefix(frames, n, id);
        assert frames[..n][FirstSeen(frames, id)] == frames[FirstSeen(frames, id)];
      }
    }
    m
  }

  /** When the video has a frame for every entry of the stream, every
      tracked id gets a thumbnail. */
  lemma PlayerImagesCoverStream(clip: Clip, frames: seq<Frame>)
    requires |frames| <= clip.frameCount
    ensures PlayerImages(clip, frames).Keys == AllIds(frames)
  {
    assert frames[..Min(clip.frameCount, |frames|)] == frames;
  }

  /** A player tracked only past the video's last frame gets no thumbnail,
      although it is among the stream's ids. */
  lemma ThumbnailMissingPastClipEnd()
    ensures var frames := [map[], map[6 := Rect(0, 0, 1, 1)]];
            var clip := Clip("v", 1, 10, 10, Fps(1, 1));
            6 in AllIds(frames) && 6 !in PlayerImages(clip, frames)
  {
    var frames: seq<Frame> := [map[], map[6 := Rect(0, 0, 1, 1)]];
    var clip := Clip("v", 1, 10, 10, Fps(1, 1));
    assert frames[1].Keys == {6};
    assert frames[..Min(clip.frameCount, |frames|)] == [map[]];
    assert AllIds([map[]]) == {} by {
      assert AllIds([]) == {};
    }
  }
}
